=== FILE: README.md ===
# Potato company site: records, admin columns, public forms and handlers

This project is a Dafny model of the core of a small Django site run by a potato
grower. It has two apps:

- `records` keeps the business tables: seed batches, plantings, sales,
  inventory and expenses. Its admin shows computed columns next to the stored
  ones: money totals, a coloured yield-efficiency badge, a payment-status badge
  and a stock status. Saving a sale without an invoice number gives it the next
  `INV-nnnnn` number.
- `main` is the public site. Its contact form, quote-request form and JSON
  newsletter signup each clean the submitted data, store a row, send a mail and
  answer the client.

The Dafny modules follow the source files:

| module | file | models |
|---|---|---|
| `Records` | records.dfy | records/models.py: entities, choice lists, validators, `total_cost`, `total_price`, `yield_efficiency`, `is_low_stock` |
| `Invoices` | invoices.dfy | records/models.py: `Sale.save` invoice numbering and the unique invoice column |
| `RecordsAdmin` | records_admin.dfy | records/admin.py: the computed admin columns |
| `MainModels` | main_models.dfy | main/models.py: contact messages, subscriptions, quote requests, the phone regex, `is_recent`, `__str__` |
| `MainForms` | main_forms.dfy | main/forms.py: field cleaning, `clean_name`, `clean_message`, the three forms |
| `MainViews` | main_views.dfy | main/views.py: the three POST handlers |
| `Wrappers`, `Text`, `Numerals` | wrappers.dfy, text.dfy, numerals.dfy | Python semantics the core relies on: `Option`/`Result`, `str.strip`, `split`, `title`, `join`, `int()`, and `format(Decimal, ',.2f')` with half-even rounding |

How the model represents things:

- **Decimal amounts** are integers counting hundredths. A product of two
  amounts is exact, in ten-thousandths.
- **Yield efficiency** is an exact fraction, and its colour bands are decided
  by cross-multiplication.
- **Text** is `seq<char>`. Python whitespace is the ASCII set: space, 9–13
  and 28–31.
- **Times** are integer microseconds and dates are day numbers. Both are
  supplied by the caller.
- **Email and date syntax** are library checks, so they come in as parameters:
  `validEmail: string -> bool` and `parseDate: string -> Option<int>`.
- **The database and the mail server** are two booleans. `dbOk` says whether
  the database calls succeed. `mailRaises` says whether `send_mail` raises.
- **Handler outcomes** record the new table, the answer, the mail handed over
  and whether an error was logged.

## Model

| member | source | states |
|---|---|---|
| Records.Label | records/models.py:6-12 | `get_<field>_display`: a listed key shows the label paired with it, and any other value shows itself |
| Records.LabelOfKey | records/models.py:83-87 | with distinct keys, the i-th key shows the i-th label |
| Records.NewPlanting | records/models.py:58-66 | a new planting is "planted" (label "Planted"), with no harvest, no harvest date and empty notes |
| Records.TotalCost | records/models.py:36-38 | the Decimal product of quantity and unit cost: zero exactly when a factor is zero, negative exactly when the factors have opposite signs |
| Records.TotalPrice | records/models.py:115-117 | the Decimal product of quantity and unit price: zero exactly when a factor is zero, negative exactly when the factors have opposite signs |
| Records.TotalCostPositive | records/models.py:15-39 | for a batch within its field limits (both amounts at least 0.01, 10 and 8 digits), the total cost is at least 0.0001 and below 10^18 ten-thousandths |
| Records.TotalPricePositive | records/models.py:94-118 | for a valid sale, the total price is at least 0.0001 and below 10^20 ten-thousandths |
| Records.YieldEfficiency | records/models.py:76-80 | none exactly when the actual yield is missing or zero, or the expected yield is zero; otherwise a fraction equal to 100 × actual / expected |
| Records.EfficiencyAtLeast | records/models.py:76-80 | with positive expected and non-zero actual yield, efficiency ≥ k exactly when 100 × actual ≥ k × expected |
| Records.FullEfficiency | records/models.py:76-80 | efficiency reaches 100 exactly when the actual yield reaches the expected yield |
| Records.IsLowStock | records/models.py:160-162 | low exactly when the stored kilograms, read as an exact decimal, are below 50 |
| Records.LowStockThreshold | records/models.py:160-162 | low stock is downward closed: an item with no more stock than a low item is low too |
| Records.LowStockBoundary | records/models.py:160-162 | the comparison is strict: 50.00 kg is not low stock, 49.99 kg is |
| Invoices.LastField | records/models.py:125 | `split('-')[-1]`: the suffix of the text after its last '-', holding no '-'; the whole text when it has none |
| Invoices.Format | records/models.py:128 | the generated number is "INV-" followed by the digits of n, zero-padded to exactly five when shorter and never padded when longer |
| Invoices.InvoiceRoundTrip | records/models.py:125-128 | `int()` of the last field of `INV-{n:05d}` gives back n |
| Invoices.NextNumber | records/models.py:121-128 | an empty table or a blank newest invoice gives 1; the only failure is a ValueError when the newest invoice's last field is not an integer |
| Invoices.AssignInvoice | records/models.py:120-129 | a given invoice number is kept; a blank one becomes `Format(NextNumber(table))`, and the save fails exactly when NextNumber raises; nothing else changes |
| Invoices.Insert | records/models.py:109-129 | a save succeeds exactly when numbering succeeds and no stored sale has the number; it then appends exactly the numbered sale; a taken number fails with an IntegrityError, and a numbering failure passes its ValueError on |
| Invoices.Update | records/models.py:109-129 | a re-save of sale k succeeds exactly when numbering succeeds and no other sale has the number; it then changes only position k, to the numbered sale; the failures are as for a new save |
| Invoices.InsertKeepsUnique | records/models.py:109 | a successful new save keeps invoice numbers unique |
| Invoices.UpdateKeepsUnique | records/models.py:109 | a successful re-save keeps invoice numbers unique |
| Invoices.GivenNumberKept | records/models.py:120-121 | a sale saved with a number keeps it, on insert and on update |
| Invoices.FirstInvoice | records/models.py:123-128 | the first sale in an empty table gets "INV-00001" |
| Invoices.BlankNewestRestarts | records/models.py:123-128 | a blank newest invoice number counts as 0: the generated number is "INV-00001", and the save succeeds exactly when that number is free |
| Invoices.NextAfterGenerated | records/models.py:123-128 | after a sale numbered `Format(n)`, a generated save succeeds unless `Format(n + 1)` is taken, and gets `Format(n + 1)` |
| Invoices.SuffixIncreases | records/models.py:125-128 | when v + 1 is free, a generated save succeeds and its suffix reads as one more than the newest sale's suffix v |
| Invoices.MalformedSuffixFails | records/models.py:125 | when the newest invoice's last field is not an integer, every unnumbered save fails with a ValueError |
| Invoices.GeneratedNumberCanRepeat | records/models.py:123-129 | numbering follows the newest sale, not the largest number: after a hand-entered "X-1", the generated "INV-00002" collides and the save fails |
| RecordsAdmin.Money | records/admin.py:29 | `${value:,.2f}` starts with '$', reads back as the sign and the amount rounded half to even to the cent, and its integer part is "0" or starts with a non-zero digit |
| RecordsAdmin.MoneyRoundTrip | records/admin.py:29 | the money text reads back as the sign and the amount rounded half to even to the cent, at most half a cent away |
| RecordsAdmin.MoneyShape | records/admin.py:29 | any money text is '$', an optional '-', comma-grouped digits, '.', and exactly two digits |
| RecordsAdmin.TotalCostDisplay | records/admin.py:28-29 | the total-cost column starts with '$' and reads back as money |
| RecordsAdmin.TotalCostDisplayReads | records/admin.py:28-29 | for a valid batch, the column reads back as the positive total cost rounded to the cent |
| RecordsAdmin.TotalPriceDisplay | records/admin.py:96-97 | the total-price column starts with '$' and reads back as money |
| RecordsAdmin.TotalPriceDisplayReads | records/admin.py:96-97 | for a valid sale, the column reads back as the positive total price rounded to the cent |
| RecordsAdmin.EfficiencyColor | records/admin.py:63 | green exactly from 100, orange exactly from 80 below 100, red exactly below 80 |
| RecordsAdmin.EfficiencyDisplay | records/admin.py:60-68 | as written: `format_html` escapes the efficiency to a string before `{:.1f}` formats it, so the column raises ValueError exactly when there is an efficiency, and shows "-" otherwise |
| RecordsAdmin.EfficiencyDisplayRaises | records/admin.py:60-68 | every planting with a positive expected and non-zero actual yield makes the column as written raise, where the intended column shows a badge |
| RecordsAdmin.NinetyFivePercentRaises | records/admin.py:60-68 | 95 kg against 100 kg expected raises as written, where the intended badge is orange |
| RecordsAdmin.IntendedEfficiencyDisplay | records/admin.py:60-68 | intended column: "-" exactly when there is no efficiency; otherwise a non-bold span in the band colour around the percentage text |
| RecordsAdmin.EfficiencyBands | records/admin.py:60-68 | the intended badge colour in terms of the yields: green when actual ≥ expected, orange when 5 × actual ≥ 4 × expected, red otherwise |
| RecordsAdmin.PercentText | records/admin.py:64-67 | the intended `{:.1f}%` text ends in '%', reads back as the sign and the half-even tenths, and its integer part is "0" or starts with a non-zero digit |
| RecordsAdmin.PercentTextRoundTrip | records/admin.py:64-67 | the intended `{:.1f}%` text reads back as the sign and the tenths of a percent, within half a tenth of the exact value |
| RecordsAdmin.PaymentColor | records/admin.py:102-109 | the colour map gives black exactly for a status outside the payment choices |
| RecordsAdmin.PaymentStatusDisplay | records/admin.py:101-111 | a bold span around the status label |
| RecordsAdmin.PaymentBadges | records/admin.py:101-111 | paid is green, pending orange and overdue red, each with its label; any other status shows itself in black |
| RecordsAdmin.StockStatus | records/admin.py:136-143 | "Low Stock" in bold red exactly when the item is low; otherwise "Good" in plain green |
| MainModels.PhonePattern | main/models.py:21-24 | `^\+?1?\d{9,15}$` (with `$` also matching before a final newline) matches exactly: an optional '+', then either 9–15 digits or 16 digits starting with '1', then an optional newline |
| MainModels.MatchPhone | main/models.py:21-24 | a single left-to-right scan decides the phone regex exactly |
| MainModels.TrimmedPhoneLength | main/forms.py:30-39 | a stripped text the regex accepts has at most 17 characters and no NUL, so the field's length and null-character checks never add an error |
| MainModels.SixteenDigitsAccepted | main/models.py:21-24 | "+1" followed by 15 digits is accepted: 16 digits, although the message says up to 15 |
| MainModels.NewContactMessage | main/models.py:26-40 | a new message keeps the given name, email and message, with no phone, company or notes; it is "general" (General Inquiry) and "new", stamped now, and valid for every email check its fields pass |
| MainModels.IsRecent | main/models.py:50-54 | recent exactly when at most seven days have passed since sending; a message stamped now or later is recent |
| MainModels.RecentBoundary | main/models.py:50-54 | a message exactly seven days old is recent, and one microsecond older is not |
| MainModels.RecentFades | main/models.py:50-54 | a message recent at a later time was recent at every earlier time |
| MainModels.ContactMessageText | main/models.py:47-48 | the text starts with "Message from " and the sender's name |
| MainModels.ContactMessageSubjects | main/models.py:47-48 | the text ends with the subject's label, or with the raw subject when it is not listed |
| MainModels.NewNewsletter | main/models.py:56-60 | a new subscription has no interests and is active |
| MainModels.NewsletterText | main/models.py:65-66 | the text starts with the email |
| MainModels.NewsletterTextRoundTrip | main/models.py:65-66 | the text gives back the email and whether the subscription is active |
| MainModels.NewQuoteRequest | main/models.py:93-105 | a new request is "pending" (label Pending), has no quoted price, and keeps every field it was given |
| MainModels.QuoteRequestText | main/models.py:110-111 | the text starts with "Quote Request from " and the company name |
| MainModels.QuoteRequestVarieties | main/models.py:69-111 | the text ends with " - " and the variety's label for each listed variety, and with the raw variety otherwise |
| MainModels.MixedVariety | main/models.py:69-111 | "mixed" shows as "Mixed Varieties" on a quote request, although it is not a seed-batch variety |
| MainForms.CleanChar | main/forms.py:11-48 | a char field strips its input; an empty value passes exactly when not required; otherwise it passes exactly when every validator does, and a required blank fails with only "required" |
| MainForms.CleanEmail | main/forms.py:21-28 | the stripped text, accepted exactly when non-empty and the email check passes |
| MainForms.CleanChoice | main/forms.py:50-65 | accepted exactly when non-empty and a listed key, unchanged; an empty value is "required" |
| MainForms.PlaceholderRejected | main/forms.py:50-65 | the empty placeholder choice never passes: with it, exactly the real keys are accepted |
| MainForms.CleanDate | main/forms.py:207-214 | accepted exactly when the stripped text parses as a date, giving that date; "required" exactly for the empty value; any other failure, whitespace alone included, is an invalid date |
| MainForms.BlankDateInvalid | main/forms.py:207-214 | a date of three spaces is reported as an invalid date, not as missing |
| MainForms.CleanAgreement | main/forms.py:78-85 | the required checkbox is accepted, as true, exactly when the value is non-empty and does not lower-case to "false"; otherwise the error is "required" |
| MainForms.AgreementFalseAnyCase | main/forms.py:78-85 | every spelling of "false" in any mix of cases unticks the box |
| MainForms.AgreementTicked | main/forms.py:78-85 | "on" and "0" tick the box |
| MainForms.AgreementUnticked | main/forms.py:78-85 | "False" and the empty value do not tick the box |
| MainForms.CleanName | main/forms.py:97-101 | accepted exactly when the char field passes and the name holds a letter; gives the title-cased name, of the same length, at most 100 |
| MainForms.CleanNameIdempotent | main/forms.py:97-101 | cleaning a cleaned name again accepts it unchanged |
| MainForms.NameNeedsLetter | main/forms.py:97-101 | a name with no letter is rejected |
| MainForms.CleanMessage | main/forms.py:67-95 | accepted exactly when the stripped message has at least 10 characters, no NUL and at least 3 words; gives the stripped message |
| MainForms.PhoneFieldAccepts | main/forms.py:30-39 | the optional phone passes exactly when blank or matching the regex, and what passes is a valid stored phone |
| MainForms.CleanContactEmail | main/models.py:27 | the contact email also meets the model's 254-character limit |
| MainForms.ContactErrors | main/forms.py:5-101 | the error map is empty exactly when every contact field passes |
| MainForms.CleanContact | main/forms.py:5-101 | valid exactly when every field passes, with non-empty errors otherwise; the cleaned data is the submitted data: the stripped, title-cased name (with a letter), the stripped email (which passes), the stripped phone (blank or phone-shaped) and company, the subject as sent (listed), and the stripped message (≥ 10 characters, ≥ 3 words) |
| MainForms.ContactFormMakesValidMessage | main/forms.py:87-89 | `form.save()` of a valid form stores a message the model's own validation accepts, with status "new" |
| MainForms.SubjectKeysFit | main/models.py:35 | every subject key fits the 20-character column |
| MainForms.CleanJsonEmail | main/forms.py:104-111 | a JSON email is accepted exactly when it is a string whose stripped text passes |
| MainForms.InterestKeys | main/forms.py:113-126 | a list is accepted exactly when every item is a listed interest key, and gives the keys in order |
| MainForms.CleanInterests | main/forms.py:113-126 | a false value gives no interests, a true non-list is "invalid list", and a list passes exactly when its items are listed keys, kept in order |
| MainForms.CleanNewsletter | main/forms.py:103-126 | valid exactly when the email and the interests both pass; gives the submitted email string stripped, which passes, and the submitted interest list in order, or none for a false value; non-empty errors otherwise |
| MainForms.QuoteErrors | main/forms.py:128-223 | the error map is empty exactly when every quote field passes |
| MainForms.CleanQuote | main/forms.py:128-223 | valid exactly when every field passes; the cleaned data is the submitted data, every text stripped and the choices as sent: a listed variety and quantity, a valid email, non-empty texts within their limits, and the parsed delivery date |
| MainForms.QuotePhoneIsFreeText | main/forms.py:173-180 | the quote phone has no pattern: any stripped text of 1–20 characters without NUL is accepted unchanged |
| MainViews.Upsert | main/views.py:201-211 | `get_or_create` then update: the email is added or kept; a new row holds the interests and is active, an existing row only changes interests and becomes active, and every other row is unchanged |
| MainViews.Signup | main/views.py:192-255 | succeeds exactly on a valid form with a working database; failure leaves the store unchanged with no mail; the message tells new from returning subscribers; a malformed body gets "Invalid request format"; a null body or an invalid form gets "Please enter a valid email address."; a non-object body gets the generic failure |
| MainViews.SignupCreates | main/views.py:201-213 | a new email adds one active row and thanks the subscriber |
| MainViews.SignupUpdates | main/views.py:206-211 | a known email keeps the row count and the subscription time, and replaces the interests |
| MainViews.UpsertKeepsKeyed | main/models.py:57 | every row stays filed under its own email, and the store grows by at most one |
| MainViews.SignupKeepsOthers | main/views.py:201-211 | a signup keeps rows keyed by email, grows the store by at most one and changes no other subscriber |
| MainViews.SignupIdempotent | main/views.py:201-211 | signing up twice with the same body leaves the store as after the first signup, and the second answer is "preferences updated" |
| MainViews.SignupMailIsolated | main/views.py:216-235 | whether the welcome mail fails changes neither the store nor the answer |
| MainViews.InterestLineRoundTrip | main/views.py:223 | splitting the joined interest line on ", " gives back the interests |
| MainViews.InterestKeyHasNoComma | main/forms.py:114-120 | no interest key contains a comma |
| MainViews.NoInterestsLine | main/views.py:223 | the fallback line appears exactly when there are no interests |
| MainViews.QuoteAnswer | main/views.py:138-188 | success exactly for valid data with a working database; it appends one pending, unpriced request stamped now, holding every cleaned field, with listed choices; failure leaves the table unchanged and sends no mail; invalid data returns the form errors |
| MainViews.QuotePost | main/views.py:138-188 | the quote handler succeeds exactly when the quote form is valid and the database works; the stored row holds the submitted texts stripped, the choices as sent and the parsed date; failure leaves the table unchanged; invalid data returns the quote form's error map |
| MainViews.QuoteMailIsolated | main/views.py:144-170 | whether the confirmation mail fails changes neither the table, the answer nor the mail |
| MainViews.ContactAnswer | main/views.py:88-135 | redirect exactly for valid data with a working database, appending one valid "new" message that holds every cleaned field; otherwise re-render with an error flash and the table unchanged; the mail goes to ADMIN_EMAIL or the default address |
| MainViews.ContactPost | main/views.py:88-135 | the contact handler redirects exactly when the form is valid and the database works; the stored row is valid, "new", and holds the title-cased name, the stripped texts and the subject as sent; invalid data re-renders with the form's error map |
| MainViews.ContactMailIsolated | main/views.py:95-115 | whether the notification fails changes neither the table, the page nor the mail |
| Text.SplitCountsWordStarts | main/forms.py:93 | `len(message.split())` is the number of word starts |
| Text.TitleShape | main/forms.py:101 | `title()` keeps the length and every non-letter, upper-cases a letter that starts a run of letters and lower-cases the rest |
| Text.TitleIdempotent | main/forms.py:101 | `title()` of a title-cased text changes nothing |
| Text.SplitJoinRoundTrip | main/views.py:223 | `', '.join` is undone by splitting, when no item holds the separator's first character |
| Numerals.FixedRoundTrip | records/admin.py:29 | a fixed-point text with grouping reads back as the sign and the scaled amount |
| Numerals.RoundHalfEvenUnique | records/admin.py:29 | the half-even rounding is the only nearest integer that breaks ties to even |

## Findings

| source | as written | input that shows it | evidently intended | confidence | as-written member | corrected member |
|---|---|---|---|---|---|---|
| records/admin.py:64-67 | `format_html` passes the efficiency through `conditional_escape`, which makes it a string, and `{:.1f}` on a string raises ValueError, so the column fails for every planting with an efficiency | expected yield 100 kg, actual yield 95 kg | an orange "95.0%" span | high that it raises, based on Django's `format_html`, which is not part of this model; not executed | RecordsAdmin.EfficiencyDisplay | RecordsAdmin.IntendedEfficiencyDisplay |

`RecordsAdmin.EfficiencyDisplayRaises` and `RecordsAdmin.NinetyFivePercentRaises` state the discrepancy. `RecordsAdmin.EfficiencyBands` and `RecordsAdmin.PercentTextRoundTrip` are stated on the intended column.

## Left out

- ORM and HTTP details. Querysets, orderings, `Meta` options, migrations, CSRF and the request object are left out. Database failure is the `dbOk` parameter, and a request that succeeds commits at once.
- Concurrency. Two signups or two sales racing for the same email or invoice number are not modelled.
- Mail and logging. `send_mail` is left out. A mail is recorded by its recipient, subject and the one line that varies with the request. With `fail_silently=True`, `send_mail` swallows SMTP errors itself, and nothing is logged. The `mailRaises` parameter stands for an exception that `send_mail` still raises; the view catches it, logs it, and only the logged flag changes. The fixed template text around that line is left out.
- Flash storage. `messages.success` and `messages.error` become the page's flash value.
- `format_html` markup. A badge is its colour, weight and text. Escaping is modelled only where it changes the outcome: the efficiency column, which raises (see Findings).
- Decimal division. Yield efficiency is the exact fraction, not Decimal's 28-digit quotient. For stored yields of at most 10 digits, the rounding cannot move the value across a colour band or change the `{:.1f}` text.
- Email and date syntax. `EmailValidator` and the date formats come in as the `validEmail` and `parseDate` parameters.
- Unicode. `isalpha`, `title`, `split` and `strip` follow Python on ASCII. Other letters and spaces are not modelled.
- Wall-clock time. `timezone.now()` and `auto_now` times are an integer the caller supplies.
- The `__str__` methods of SeedBatch, PlantingRecord, Sale, Inventory and Expense. They format Decimals and dates, and no operation depends on them.
- Model-level `full_clean` of the records tables. Its validators are stated as the `ValidSeedBatch`, `ValidSale` and related predicates, not run as a form.
- Expense. It is a data type with its validity predicate only, because it has no behaviour.
- JSON decoding. `json.loads` is the `Body` value: malformed, or a decoded JSON tree. Bodies that are not UTF-8, and the exact text of numbers, are not modelled.
- Case-insensitive email matching in the database. `get_or_create` matches emails exactly, as the model does.
- Static views, templates and admin list configuration. They have no logic to model. The root URLconf is not part of this model.
- MainViews.ContactAnswer: assumes that `redirect('contact')` (main/views.py:121) resolves. main/urls.py sets `app_name = 'main'`, so under a namespaced `include` the name is `main:contact`, and `reverse('contact')` raises NoReverseMatch unless the root URLconf also names a URL 'contact'. That exception would be caught at main/views.py:123 after the row was saved and the mail sent, and the page would re-render with the failure flash while keeping the new row. The model covers only the resolving case, where the redirect happens.
- MainViews.QuotePost: states success, table preservation, the stored row's tie to the form and the invalid-data answer. The mail and the failure messages are stated on `MainViews.QuoteAnswer`, which it calls.
- MainViews.ContactPost: states the redirect condition, the stored row's validity and tie to the form, and the invalid-data page. The mail recipient and the failure flash are stated on `MainViews.ContactAnswer`, which it calls.
- RecordsAdmin.StockStatus: assumes Django before 6.0. `stock_status` calls `format_html` with no arguments, which Django 5.0 deprecates and 6.0 turns into an error. The efficiency finding holds in every version, since `format_html` escapes its arguments in all of them.

=== FILE: invoices.dfy ===
/**
  Invoice numbering on saving a sale. A sale saved without an invoice number
  gets "INV-" followed by a five-digit zero-padded number, one more than the
  number after the last '-' of the newest sale's invoice. The sales table is a
  sequence in id order, so its last element is the newest sale, and invoice
  numbers are unique in it.
 */
module Invoices {
  import opened Wrappers
  import opened Text
  import opened Numerals
  import opened Records

  /** What saving can raise: `int()` of a malformed suffix, or a second sale with the same invoice number. */
  datatype SaveError = ValueError | IntegrityError

  /** `s.split('-')[-1]`: the text after the last '-', or all of s when it has none. */
  function LastField(s: string): (r: string)
    ensures '-' !in r && |r| <= |s|
    ensures r == s[|s| - |r|..] && (|r| < |s| ==> s[|s| - |r| - 1] == '-')
    ensures '-' !in s ==> r == s
  {
    if s == [] || s[|s| - 1] == '-' then [] else LastField(s[..|s| - 1]) + [s[|s| - 1]]
  }

  /** The text after a prefix ending in '-' is the last field when it holds no '-' itself. */
  lemma LastFieldAfterDash(a: string, b: string)
    requires a != [] && a[|a| - 1] == '-' && '-' !in b
    ensures LastField(a + b) == b
  {
    var s := a + b;
    var r := LastField(s);
    DashFreeSuffixAfter(s, r, |a| - 1);
    DashBeforeSuffix(s, r, b);
  }

  /** A dash-free suffix of s cannot reach back over a '-' at position k. */
  lemma DashFreeSuffixAfter(s: string, r: string, k: nat)
    requires |r| <= |s| && r == s[|s| - |r|..] && '-' !in r
    requires k < |s| && s[k] == '-'
    ensures |r| <= |s| - k - 1
  {
  }

  /** A dash-free b at the end of s is covered by a suffix that stops only at a '-'. */
  lemma DashBeforeSuffix(s: string, r: string, b: string)
    requires |b| <= |s| && s[|s| - |b|..] == b && '-' !in b
    requires |r| <= |b| && r == s[|s| - |r|..] && (|r| < |s| ==> s[|s| - |r| - 1] == '-')
    ensures r == b
  {
  }

  /** The generated invoice number for n: `f"INV-{n:05d}"`. */
  function Format(n: nat): (r: string)
    ensures |r| >= 9 && r[..4] == "INV-"
    ensures AllDigits(r[4..]) && |r[4..]| >= 5 && ValueOf(r[4..]) == n
    ensures |r| == 4 + (if |Decimal(n)| < 5 then 5 else |Decimal(n)|)
    ensures |r| > 9 ==> r[4] != '0'
  {
    var digits := PadDecimal(n, 5);
    assert ("INV-" + digits)[4..] == digits;
    "INV-" + digits
  }

  /** The suffix of a generated invoice number reads back as the number it was made from. */
  lemma InvoiceRoundTrip(n: nat)
    ensures ParseInt(LastField(Format(n))) == Some(n)
  {
    var d := PadDecimal(n, 5);
    assert forall i | 0 <= i < |d| :: d[i] != '-';
    LastFieldAfterDash("INV-", d);
    ParseDigits(d);
  }

  /**
    The number the next generated invoice gets: 1 for the first sale or
    when the newest sale has a blank invoice number, otherwise one more than
    the integer after the last '-' of the newest invoice number.
   */
  function NextNumber(table: seq<Sale>): (r: Result<nat, SaveError>)
    ensures table == [] || table[|table| - 1].invoiceNumber == [] ==> r == Ok(1)
    ensures r.Err? ==> r.error == ValueError && ParseInt(LastField(table[|table| - 1].invoiceNumber)).None?
  {
    if table == [] then Ok(1)
    else
      var last := table[|table| - 1].invoiceNumber;
      if last == [] then Ok(1)
      else
        match ParseInt(LastField(last))
        case None => Err(ValueError)
        case Some(v) => Ok(v + 1)
  }

  lemma NextNumberAfter(table: seq<Sale>, v: int)
    requires table != [] && table[|table| - 1].invoiceNumber != []
    requires ParseInt(LastField(table[|table| - 1].invoiceNumber)) == Some(v)
    ensures v >= 0 && NextNumber(table).Ok? && NextNumber(table).value == v + 1
  {
  }

  /** The invoice part of `Sale.save`: a given invoice number is kept, a blank one is generated. */
  function AssignInvoice(table: seq<Sale>, sale: Sale): (r: Result<Sale, SaveError>)
    ensures sale.invoiceNumber != [] ==> r == Ok(sale)
    ensures r.Ok? ==> r.value.invoiceNumber != [] && r.value == sale.(invoiceNumber := r.value.invoiceNumber)
    ensures sale.invoiceNumber == [] ==> (r.Ok? <==> NextNumber(table).Ok?)
    ensures sale.invoiceNumber == [] && r.Ok? ==> r.value.invoiceNumber == Format(NextNumber(table).value)
    ensures sale.invoiceNumber == [] && r.Err? ==> r.error == NextNumber(table).error
  {
    if sale.invoiceNumber != [] then Ok(sale)
    else
      match NextNumber(table)
      case Err(e) => Err(e)
      case Ok(n) => Ok(sale.(invoiceNumber := Format(n)))
  }

  /** No two sales share an invoice number (the column is unique). */
  predicate Unique(table: seq<Sale>) {
    forall i, j :: 0 <= i < j < |table| ==> table[i].invoiceNumber != table[j].invoiceNumber
  }

  predicate NumberTaken(table: seq<Sale>, number: string, except: int) {
    exists i :: 0 <= i < |table| && i != except && table[i].invoiceNumber == number
  }

  /** Saving a new sale: it is appended with its invoice number, unless the number is taken. */
  function Insert(table: seq<Sale>, sale: Sale): (r: Result<seq<Sale>, SaveError>)
    ensures r.Ok? ==> |r.value| == |table| + 1 && r.value[..|table|] == table
    ensures r.Ok? ==> AssignInvoice(table, sale) == Ok(r.value[|table|])
    ensures r.Ok? <==> AssignInvoice(table, sale).Ok? && !NumberTaken(table, AssignInvoice(table, sale).value.invoiceNumber, -1)
    ensures r.Err? && AssignInvoice(table, sale).Ok? ==> r.error == IntegrityError
    ensures r.Err? && AssignInvoice(table, sale).Err? ==> r.error == AssignInvoice(table, sale).error
  {
    match AssignInvoice(table, sale)
    case Err(e) => Err(e)
    case Ok(s) =>
      if NumberTaken(table, s.invoiceNumber, -1) then Err(IntegrityError)
      else Ok(table + [s])
  }

  /**
    Saving an existing sale, the one at position k. The newest sale may be
    this one, as stored before the save.
   */
  function Update(table: seq<Sale>, k: nat, sale: Sale): (r: Result<seq<Sale>, SaveError>)
    requires k < |table|
    ensures r.Ok? ==> |r.value| == |table| && r.value == table[k := r.value[k]]
    ensures r.Ok? ==> AssignInvoice(table, sale) == Ok(r.value[k])
    ensures r.Ok? <==> AssignInvoice(table, sale).Ok? && !NumberTaken(table, AssignInvoice(table, sale).value.invoiceNumber, k)
    ensures r.Err? && AssignInvoice(table, sale).Ok? ==> r.error == IntegrityError
    ensures r.Err? && AssignInvoice(table, sale).Err? ==> r.error == AssignInvoice(table, sale).error
  {
    match AssignInvoice(table, sale)
    case Err(e) => Err(e)
    case Ok(s) =>
      if NumberTaken(table, s.invoiceNumber, k) then Err(IntegrityError)
      else Ok(table[k := s])
  }

  /** A successful save keeps invoice numbers unique. */
  lemma InsertKeepsUnique(table: seq<Sale>, sale: Sale)
    requires Unique(table) && Insert(table, sale).Ok?
    ensures Unique(Insert(table, sale).value)
  {
    var t := Insert(table, sale).value;
    forall i, j | 0 <= i < j < |t|
      ensures t[i].invoiceNumber != t[j].invoiceNumber
    {
      if j == |table| {
        assert t[i] == table[i];
      } else {
        assert t[i] == table[i] && t[j] == table[j];
      }
    }
  }

  lemma UpdateKeepsUnique(table: seq<Sale>, k: nat, sale: Sale)
    requires k < |table| && Unique(table) && Update(table, k, sale).Ok?
    ensures Unique(Update(table, k, sale).value)
  {
    var t := Update(table, k, sale).value;
    forall i, j | 0 <= i < j < |t|
      ensures t[i].invoiceNumber != t[j].invoiceNumber
    {
      if i == k {
        assert !NumberTaken(table, t[k].invoiceNumber, k);
        assert table[j] == t[j];
      } else if j == k {
        assert !NumberTaken(table, t[k].invoiceNumber, k);
        assert table[i] == t[i];
      } else {
        assert t[i] == table[i] && t[j] == table[j];
      }
    }
  }

  /** A sale saved with an invoice number keeps it, on insert and on update alike. */
  lemma GivenNumberKept(table: seq<Sale>, k: nat, sale: Sale)
    requires sale.invoiceNumber != []
    ensures Insert(table, sale).Ok? ==> Insert(table, sale).value[|table|] == sale
    ensures k < |table| && Update(table, k, sale).Ok? ==> Update(table, k, sale).value[k] == sale
  {
  }

  /** A one-digit number is padded with four zeros. */
  lemma FormatOneDigit(n: nat)
    requires n < 10
    ensures Format(n) == "INV-0000" + [DigitChar(n)]
  {
    assert Decimal(n) == [DigitChar(n)];
    assert Zeros(4) == "0000";
  }

  lemma FormatOne()
    ensures Format(1) == "INV-00001"
  {
    FormatOneDigit(1);
    assert DigitChar(1) == '1';
  }

  /** The very first sale gets "INV-00001". */
  lemma FirstInvoice(sale: Sale)
    requires sale.invoiceNumber == []
    ensures Insert([], sale) == Ok([sale.(invoiceNumber := "INV-00001")])
  {
    FormatOne();
    assert NextNumber([]) == Ok(1);
    assert AssignInvoice([], sale) == Ok(sale.(invoiceNumber := "INV-00001"));
    assert !NumberTaken([], "INV-00001", -1);
  }

  /**
    After a sale numbered n, the next generated invoice is numbered n + 1:
    its suffix reads back as one more than the newest one's.
   */
  lemma NextAfterGenerated(table: seq<Sale>, sale: Sale, n: nat)
    requires table != [] && table[|table| - 1].invoiceNumber == Format(n)
    requires sale.invoiceNumber == [] && !NumberTaken(table, Format(n + 1), -1)
    ensures Insert(table, sale).Ok?
    ensures Insert(table, sale).value[|table|].invoiceNumber == Format(n + 1)
  {
    InvoiceRoundTrip(n);
    NextNumberAfter(table, n);
    assert AssignInvoice(table, sale) == Ok(sale.(invoiceNumber := Format(n + 1)));
  }

  /** Generated suffixes strictly increase: the new one reads as one more than the newest sale's. */
  lemma SuffixIncreases(table: seq<Sale>, sale: Sale, v: int)
    requires table != [] && ParseInt(LastField(table[|table| - 1].invoiceNumber)) == Some(v)
    requires table[|table| - 1].invoiceNumber != []
    requires sale.invoiceNumber == [] && !NumberTaken(table, Format(v + 1), -1)
    ensures Insert(table, sale).Ok?
    ensures ParseInt(LastField(Insert(table, sale).value[|table|].invoiceNumber)) == Some(v + 1)
    ensures v + 1 > v >= 0
  {
    NextNumberAfter(table, v);
    assert AssignInvoice(table, sale) == Ok(sale.(invoiceNumber := Format(v + 1)));
    InvoiceRoundTrip(v + 1);
  }

  /**
    A blank newest invoice number counts as 0: the next generated invoice is
    "INV-00001", saved unless that number is already in the table.
   */
  lemma BlankNewestRestarts(table: seq<Sale>, sale: Sale)
    requires table != [] && table[|table| - 1].invoiceNumber == []
    requires sale.invoiceNumber == []
    ensures AssignInvoice(table, sale) == Ok(sale.(invoiceNumber := "INV-00001"))
    ensures Insert(table, sale).Ok? <==> !NumberTaken(table, "INV-00001", -1)
  {
    FormatOne();
  }

  /** A newest invoice number whose suffix is not an integer makes every later generated save fail. */
  lemma MalformedSuffixFails(table: seq<Sale>, sale: Sale)
    requires table != [] && table[|table| - 1].invoiceNumber != []
    requires ParseInt(LastField(table[|table| - 1].invoiceNumber)).None?
    requires sale.invoiceNumber == []
    ensures Insert(table, sale) == Err(ValueError)
  {
  }

  /**
    Generation follows the newest sale, not the largest number: after a sale
    entered by hand with a smaller suffix, the generated number can repeat
    one already in the table, and the save fails on the unique column.
   */
  lemma GeneratedNumberCanRepeat(a: Sale, b: Sale, c: Sale)
    requires a.invoiceNumber == Format(2) && b.invoiceNumber == "X-1" && c.invoiceNumber == []
    ensures Insert([a, b], c) == Err(IntegrityError)
  {
    ReadsOne();
    assert NextNumber([a, b]) == Ok(2);
    assert AssignInvoice([a, b], c) == Ok(c.(invoiceNumber := Format(2)));
    assert [a, b][0].invoiceNumber == Format(2);
    assert NumberTaken([a, b], Format(2), -1);
  }

  lemma ReadsOne()
    ensures ParseInt(LastField("X-1")) == Some(1)
  {
    LastFieldOne();
    ParseOne();
  }

  lemma LastFieldOne()
    ensures LastField("X-1") == "1"
  {
    assert "X-" + "1" == "X-1";
    LastFieldAfterDash("X-", "1");
  }

  lemma ParseOne()
    ensures ParseInt("1") == Some(1)
  {
    ParseOneDigit('1');
  }

  lemma ParseOneDigit(c: char)
    requires IsDigit(c)
    ensures ParseInt([c]) == Some(DigitValue(c))
  {
    assert AllDigits([c]);
    assert [c][..0] == [];
    assert ValueOf([c]) == DigitValue(c);
    ParseDigits([c]);
  }
}

=== FILE: main_forms.dfy ===
/**
  The public forms: the contact form, the newsletter form and the quote
  request form. Each field is cleaned the way its Django field class does it
  (`to_python`, then the required check, then the validators, which all run
  and all report), and then the form's own `clean_<field>` runs on a field
  that came through. Email and date parsing are library code and come in as
  parameters: `validEmail` says whether a stripped text passes the email
  field, `parseDate` reads a stripped text as a day number or fails.
 */
module MainForms {
  import opened Wrappers
  import opened Text
  import opened Numerals
  import opened Records
  import opened MainModels

  datatype FieldError =
    | Required
    | InvalidEmail
    | InvalidPhone
    | InvalidChoice
    | InvalidList
    | InvalidDate
    | TooShort(limit: nat, length: nat)
    | TooLong(limit: nat, length: nat)
    | NullCharacter
    | FewWords
    | NoLetter

  /** What a field cleans to: its value, or the errors it reports. */
  type Cleaned<T> = Result<T, seq<FieldError>>

  /** Errors by field name, as `form.errors`. */
  type Errors = map<string, seq<FieldError>>

  /** POST data. A missing key reads as the empty text: every field treats both alike. */
  type FormData = map<string, string>

  function Field(data: FormData, key: string): string {
    if key in data then data[key] else ""
  }

  /** The errors of a cleaned field, if any. */
  function Problems<T>(r: Cleaned<T>): Option<seq<FieldError>> {
    if r.Err? then Some(r.error) else None
  }

  /** Files a field's errors, if it has any, under its name. */
  function AddProblem(errors: Errors, name: string, p: Option<seq<FieldError>>): (r: Errors)
    ensures r == map[] <==> errors == map[] && p.None?
    ensures p.Some? ==> name in r && r[name] == p.value
  {
    if p.Some? then
      var r := errors[name := p.value];
      assert name in r;
      r
    else errors
  }

  // ---------------------------------------------------------------------------
  // CharField
  // ---------------------------------------------------------------------------

  /** The options of a CharField: required, min_length, max_length, and whether it carries the phone validator. */
  datatype CharSpec = CharSpec(required: bool, minLength: Option<nat>, maxLength: Option<nat>, phone: bool)

  /**
    The validators of a CharField in the order Django runs them: the ones
    passed in, then min_length, then max_length, then the null-character check.
   */
  function Validators(spec: CharSpec, v: string): (errors: seq<FieldError>)
    ensures errors == [] <==>
      && (spec.phone ==> PhoneRegex(v))
      && (spec.minLength.Some? ==> |v| >= spec.minLength.value)
      && (spec.maxLength.Some? ==> |v| <= spec.maxLength.value)
      && '\0' !in v
  {
    (if spec.phone && !PhoneRegex(v) then [InvalidPhone] else [])
    + (if spec.minLength.Some? && |v| < spec.minLength.value then [TooShort(spec.minLength.value, |v|)] else [])
    + (if spec.maxLength.Some? && |v| > spec.maxLength.value then [TooLong(spec.maxLength.value, |v|)] else [])
    + (if '\0' in v then [NullCharacter] else [])
  }

  /**
    `CharField.clean`: the text is stripped; an empty text is an error only
    for a required field and skips the validators; any other text must pass
    every validator.
   */
  function CleanChar(spec: CharSpec, raw: string): (r: Cleaned<string>)
    ensures r.Ok? ==> r.value == Strip(raw)
    ensures r.Ok? <==> if Strip(raw) == [] then !spec.required else Validators(spec, Strip(raw)) == []
    ensures r.Err? ==> r.error != []
    ensures spec.required && AllSpace(raw) ==> r.Err? && r.error == [Required]
  {
    StripEmpty(raw);
    var v := Strip(raw);
    if v == [] then (if spec.required then Err([Required]) else Ok(v))
    else
      var errors := Validators(spec, v);
      if errors == [] then Ok(v) else Err(errors)
  }

  /** A text with no surrounding whitespace that passes the validators comes back unchanged. */
  lemma CleanCharTrimmed(spec: CharSpec, t: string)
    requires Trimmed(t) && t != [] && Validators(spec, t) == []
    ensures CleanChar(spec, t).Ok? && CleanChar(spec, t).value == t
  {
    StripTrimmed(t);
  }

  /** `EmailField.clean` on a text: stripped, required, then the email check. */
  function CleanEmail(raw: string, validEmail: string -> bool): (r: Cleaned<string>)
    ensures r.Ok? <==> Strip(raw) != [] && validEmail(Strip(raw))
    ensures r.Ok? ==> r.value == Strip(raw)
  {
    var v := Strip(raw);
    if v == [] then Err([Required])
    else if !validEmail(v) then Err([InvalidEmail])
    else Ok(v)
  }

  /** `ChoiceField.clean`: the text is not stripped; empty is missing, anything else must be a listed key. */
  function CleanChoice(c: Choices, v: string): (r: Cleaned<string>)
    ensures r.Ok? <==> v != [] && IsKey(c, v)
    ensures r.Ok? ==> r.value == v
    ensures v == [] ==> r.Err? && r.error == [Required]
  {
    if v == [] then Err([Required])
    else if !IsKey(c, v) then Err([InvalidChoice])
    else Ok(v)
  }

  /** A choice list led by the '' placeholder accepts exactly the keys listed after it. */
  lemma PlaceholderRejected(placeholder: string, c: Choices, v: string)
    ensures CleanChoice([("", placeholder)] + c, v).Ok? <==> v != [] && IsKey(c, v)
  {
    var full := [("", placeholder)] + c;
    if v != [] && IsKey(full, v) {
      var i :| 0 <= i < |full| && full[i].0 == v;
      assert c[i - 1].0 == v;
    }
    if IsKey(c, v) {
      var i :| 0 <= i < |c| && c[i].0 == v;
      assert full[i + 1].0 == v;
    }
  }

  /**
    `DateField.clean`: only the empty value is "required"; any other text is
    stripped and must parse as a date, so whitespace alone is an invalid
    date.
   */
  function CleanDate(raw: string, parseDate: string -> Option<int>): (r: Cleaned<int>)
    ensures r.Ok? <==> Strip(raw) != [] && parseDate(Strip(raw)).Some?
    ensures r.Ok? ==> r.value == parseDate(Strip(raw)).value
    ensures raw == [] <==> r.Err? && r.error == [Required]
    ensures raw != [] && r.Err? ==> r.error == [InvalidDate]
  {
    if raw == [] then Err([Required])
    else
      var v := Strip(raw);
      if v == [] then Err([InvalidDate])
      else match parseDate(v)
        case None => Err([InvalidDate])
        case Some(d) => Ok(d)
  }

  /** Whitespace alone is not the empty value: it is reported as an invalid date, not as missing. */
  lemma BlankDateInvalid(parseDate: string -> Option<int>)
    ensures CleanDate("   ", parseDate) == Err([InvalidDate])
  {
    StripEmpty("   ");
  }

  /** `str.lower()` on ASCII: each character lowered in place. */
  function Lower(s: string): (r: string)
    ensures |r| == |s|
    ensures forall i :: 0 <= i < |s| ==> r[i] == ToLower(s[i])
  {
    if s == [] then [] else [ToLower(s[0])] + Lower(s[1..])
  }

  /**
    A required `BooleanField` behind a checkbox: the box reads as unticked
    when the key is missing, empty, or "false" in any case; every other text,
    "0" included, ticks it.
   */
  function CleanAgreement(raw: string): (r: Cleaned<bool>)
    ensures r.Ok? ==> r.value
    ensures r.Ok? <==> raw != [] && Lower(raw) != "false"
    ensures r.Err? ==> r.error == [Required]
  {
    if raw == [] || Lower(raw) == "false" then Err([Required]) else Ok(true)
  }

  /** "on", which browsers send for a ticked box, and even "0" tick it. */
  lemma AgreementTicked()
    ensures CleanAgreement("on").Ok? && CleanAgreement("0").Ok?
  {
    assert Lower("on") == "on";
    assert Lower("0") == "0";
  }

  /** Every five-letter spelling of "false", whatever its case, unticks the box. */
  lemma AgreementFalseAnyCase(raw: string)
    requires |raw| == 5 && forall i :: 0 <= i < 5 ==> ToLower(raw[i]) == "false"[i]
    ensures CleanAgreement(raw).Err?
  {
    assert Lower(raw) == "false";
  }

  /** "False" in any case unticks it, like a missing key. */
  lemma AgreementUnticked()
    ensures CleanAgreement("False").Err? && CleanAgreement("").Err?
  {
    assert Lower("False") == "false";
  }

  // ---------------------------------------------------------------------------
  // ContactForm
  // ---------------------------------------------------------------------------

  const NameSpec := CharSpec(true, None, Some(100), false)
  const PhoneSpec := CharSpec(false, None, Some(17), true)
  const CompanySpec := CharSpec(false, None, Some(100), false)
  const MessageSpec := CharSpec(true, Some(10), None, false)

  const SubjectField: Choices := [("", "Select a Subject")] + SubjectChoices

  /** `ContactForm.clean_name` after the field: at least one letter, and the name comes back title-cased. */
  function CleanName(raw: string): (r: Cleaned<string>)
    ensures r.Ok? <==> CleanChar(NameSpec, raw).Ok? && HasLetter(Strip(raw))
    ensures r.Ok? ==> r.value == Title(Strip(raw)) && HasLetter(r.value) && |r.value| == |Strip(raw)| <= 100
  {
    match CleanChar(NameSpec, raw)
    case Err(e) => Err(e)
    case Ok(v) =>
      if !HasLetter(v) then Err([NoLetter])
      else
        TitleKeepsLetters(v);
        TitleShape(v);
        Ok(Title(v))
  }

  /** Cleaning a cleaned name gives it back unchanged. */
  lemma CleanNameIdempotent(raw: string)
    requires CleanName(raw).Ok?
    ensures CleanName(CleanName(raw).value).Ok? && CleanName(CleanName(raw).value).value == CleanName(raw).value
  {
    var v := Strip(raw);
    var t := Title(v);
    assert Validators(NameSpec, v) == [];
    TitleKeepsNull(v);
    TitleKeepsLetters(v);
    assert Validators(NameSpec, t) == [];
    CleanCharTrimmed(NameSpec, t);
    TitleIdempotent(v);
  }

  /** Title-casing neither adds nor removes a null character. */
  lemma TitleKeepsNull(v: string)
    ensures |Title(v)| == |v|
    ensures '\0' in Title(v) <==> '\0' in v
  {
    var t := Title(v);
    TitleShape(v);
    TitleKeepsClasses(v);
    if '\0' in t {
      var i :| 0 <= i < |t| && t[i] == '\0';
      assert !IsAlpha(v[i]) && v[i] == t[i];
    }
    if '\0' in v {
      var i :| 0 <= i < |v| && v[i] == '\0';
      assert t[i] == v[i];
    }
  }

  /** A name with no letter is refused whatever else it holds. */
  lemma NameNeedsLetter(raw: string)
    requires !HasLetter(raw)
    ensures CleanName(raw).Err?
  {
    StripChars(raw);
  }

  /**
    `ContactForm.clean_message` after the field: the stripped message needs
    ten characters and at least three whitespace-separated words, and comes
    back unchanged.
   */
  function CleanMessage(raw: string): (r: Cleaned<string>)
    ensures r.Ok? <==> var v := Strip(raw); |v| >= 10 && '\0' !in v && WordStarts(v, true) >= 3
    ensures r.Ok? ==> r.value == Strip(raw)
  {
    match CleanChar(MessageSpec, raw)
    case Err(e) => Err(e)
    case Ok(v) =>
      SplitCountsWordStarts(v);
      if |Split(v)| < 3 then Err([FewWords]) else Ok(v)
  }

  /** The phone field takes nothing at all, or a phone matching the pattern: the length limit never bites. */
  lemma PhoneFieldAccepts(raw: string)
    ensures CleanChar(PhoneSpec, raw).Ok? <==> Strip(raw) == [] || PhoneRegex(Strip(raw))
    ensures CleanChar(PhoneSpec, raw).Ok? ==> ValidContactPhone(CleanChar(PhoneSpec, raw).value)
  {
    var v := Strip(raw);
    if v != [] && PhoneRegex(v) {
      TrimmedPhoneLength(v);
    }
  }

  /** The cleaned fields a valid contact form saves. */
  datatype ContactData = ContactData(name: string, email: string, phone: string, company: string, subject: string, message: string)

  /** The email of the contact form, then the model's 254-character limit on it. */
  function CleanContactEmail(raw: string, validEmail: string -> bool): (r: Cleaned<string>)
    ensures r.Ok? <==> CleanEmail(raw, validEmail).Ok? && |Strip(raw)| <= 254
    ensures r.Ok? ==> r.value == Strip(raw)
  {
    match CleanEmail(raw, validEmail)
    case Err(e) => Err(e)
    case Ok(v) => if |v| > 254 then Err([TooLong(254, |v|)]) else Ok(v)
  }

  /** Every field of the contact form cleans, `clean_name` and `clean_message` included. */
  predicate ContactValid(data: FormData, validEmail: string -> bool) {
    && CleanName(Field(data, "name")).Ok?
    && CleanContactEmail(Field(data, "email"), validEmail).Ok?
    && CleanChar(PhoneSpec, Field(data, "phone")).Ok?
    && CleanChar(CompanySpec, Field(data, "company")).Ok?
    && CleanChoice(SubjectField, Field(data, "subject")).Ok?
    && CleanMessage(Field(data, "message")).Ok?
    && CleanAgreement(Field(data, "privacy_agreement")).Ok?
  }

  function ContactErrors(data: FormData, validEmail: string -> bool): (errors: Errors)
    ensures errors == map[] <==> ContactValid(data, validEmail)
  {
    var e := AddProblem(map[], "name", Problems(CleanName(Field(data, "name"))));
    var e := AddProblem(e, "email", Problems(CleanContactEmail(Field(data, "email"), validEmail)));
    var e := AddProblem(e, "phone", Problems(CleanChar(PhoneSpec, Field(data, "phone"))));
    var e := AddProblem(e, "company", Problems(CleanChar(CompanySpec, Field(data, "company"))));
    var e := AddProblem(e, "subject", Problems(CleanChoice(SubjectField, Field(data, "subject"))));
    var e := AddProblem(e, "message", Problems(CleanMessage(Field(data, "message"))));
    AddProblem(e, "privacy_agreement", Problems(CleanAgreement(Field(data, "privacy_agreement"))))
  }

  /** `ContactForm.is_valid()` and its cleaned data, or the errors by field. */
  function CleanContact(data: FormData, validEmail: string -> bool): (r: Result<ContactData, Errors>)
    ensures r.Ok? <==> ContactValid(data, validEmail)
    ensures r.Err? ==> r.error != map[]
    ensures r.Ok? ==>
      && r.value.name == Title(Strip(Field(data, "name"))) && HasLetter(r.value.name)
      && r.value.email == Strip(Field(data, "email")) && validEmail(r.value.email)
      && (r.value.phone == [] || PhoneShape(r.value.phone))
      && r.value.subject != [] && IsKey(SubjectChoices, r.value.subject)
      && r.value.message == Strip(Field(data, "message")) && |r.value.message| >= 10
      && WordStarts(r.value.message, true) >= 3
    ensures r.Ok? ==>
      && r.value.phone == Strip(Field(data, "phone"))
      && r.value.company == Strip(Field(data, "company"))
      && r.value.subject == Field(data, "subject")
  {
    var errors := ContactErrors(data, validEmail);
    if errors != map[] then Err(errors)
    else
      var phone := Field(data, "phone");
      PhoneFieldAccepts(phone);
      PhonePattern(Strip(phone));
      PlaceholderRejected("Select a Subject", SubjectChoices, Field(data, "subject"));
      Ok(ContactData(
        CleanName(Field(data, "name")).value,
        CleanContactEmail(Field(data, "email"), validEmail).value,
        CleanChar(PhoneSpec, phone).value,
        CleanChar(CompanySpec, Field(data, "company")).value,
        Field(data, "subject"),
        CleanMessage(Field(data, "message")).value))
  }

  /** `form.save()`: the message row built from a valid contact form, with the model defaults for the rest. */
  function SaveContact(d: ContactData, now: int): ContactMessage {
    NewContactMessage(d.name, d.email, d.message, now).(phone := d.phone, company := d.company, subject := d.subject)
  }

  /** Whatever the contact form accepts, the model accepts as a message with status 'new'. */
  lemma ContactFormMakesValidMessage(data: FormData, validEmail: string -> bool, now: int)
    requires CleanContact(data, validEmail).Ok?
    ensures ValidContactMessage(SaveContact(CleanContact(data, validEmail).value, now), validEmail)
    ensures SaveContact(CleanContact(data, validEmail).value, now).status == "new"
  {
    var d := CleanContact(data, validEmail).value;
    var m := SaveContact(d, now);
    assert ContactValid(data, validEmail);
    assert |d.name| <= 100 by {
      assert d.name == CleanName(Field(data, "name")).value;
    }
    assert |d.email| <= 254 by {
      assert d.email == CleanContactEmail(Field(data, "email"), validEmail).value;
    }
    assert ValidContactPhone(d.phone) by {
      assert d.phone == CleanChar(PhoneSpec, Field(data, "phone")).value;
      PhoneFieldAccepts(Field(data, "phone"));
    }
    assert |d.company| <= 100 by {
      var c := CleanChar(CompanySpec, Field(data, "company"));
      assert d.company == c.value;
      assert Strip(Field(data, "company")) != [] ==> Validators(CompanySpec, c.value) == [];
    }
    assert |d.subject| <= 20 by {
      SubjectKeysFit(d.subject);
    }
    assert m.name == d.name && m.email == d.email && m.phone == d.phone && m.company == d.company;
    assert m.subject == d.subject && m.message == d.message && m.status == "new";
    assert IsKey(ContactStatusChoices, "new") by {
      assert ContactStatusChoices[0].0 == "new";
    }
  }

  lemma SubjectKeysFit(subject: string)
    requires IsKey(SubjectChoices, subject)
    ensures |subject| <= 20
  {
    var i :| 0 <= i < |SubjectChoices| && SubjectChoices[i].0 == subject;
  }

  // ---------------------------------------------------------------------------
  // NewsletterForm (the data is a decoded JSON object)
  // ---------------------------------------------------------------------------

  datatype Json =
    | JNull
    | JBool(b: bool)
    | JNumber(x: real)
    | JString(s: string)
    | JArray(items: seq<Json>)
    | JObject(fields: map<string, Json>)

  /** Python truthiness of a decoded JSON value. */
  predicate Truthy(j: Json) {
    match j
    case JNull => false
    case JBool(b) => b
    case JNumber(x) => x != 0.0
    case JString(s) => s != []
    case JArray(items) => items != []
    case JObject(fields) => fields != map[]
  }

  /** `data.get(key)`: a missing member reads as null. */
  function Member(fields: map<string, Json>, key: string): Json {
    if key in fields then fields[key] else JNull
  }

  const InterestChoices: Choices := [
    ("products", "New Products"), ("prices", "Price Updates"), ("seasonal", "Seasonal Information"),
    ("recipes", "Recipes & Tips"), ("wholesale", "Wholesale Opportunities")]

  /**
    `EmailField.clean` on a JSON value. A string is stripped; null, "", [] and
    {} are empty; the text Python makes of any other value (a number, a
    boolean, a non-empty list or object) is never an email.
   */
  function CleanJsonEmail(j: Json, validEmail: string -> bool): (r: Cleaned<string>)
    ensures r.Ok? <==> j.JString? && CleanEmail(j.s, validEmail).Ok?
    ensures r.Ok? ==> r.value == Strip(j.s)
  {
    match j
    case JString(s) => CleanEmail(s, validEmail)
    case JNull => Err([Required])
    case JArray(items) => if items == [] then Err([Required]) else Err([InvalidEmail])
    case JObject(fields) => if fields == map[] then Err([Required]) else Err([InvalidEmail])
    case _ => Err([InvalidEmail])
  }

  /** The texts of a list whose items are all listed interest keys. */
  function InterestKeys(items: seq<Json>): (r: Option<seq<string>>)
    ensures r.Some? <==> forall i :: 0 <= i < |items| ==> items[i].JString? && IsKey(InterestChoices, items[i].s)
    ensures r.Some? ==> |r.value| == |items| && forall i :: 0 <= i < |items| ==> r.value[i] == items[i].s
  {
    if items == [] then Some([])
    else
      var rest := InterestKeys(items[1..]);
      assert forall i :: 1 <= i < |items| ==> items[i] == items[1..][i - 1];
      if items[0].JString? && IsKey(InterestChoices, items[0].s) && rest.Some? then
        Some([items[0].s] + rest.value)
      else
        None
  }

  /**
    `MultipleChoiceField.clean`, not required: a false value is no interests;
    anything else must be a list of listed keys, kept in order.
   */
  function CleanInterests(j: Json): (r: Cleaned<seq<string>>)
    ensures !Truthy(j) ==> r.Ok? && r.value == []
    ensures Truthy(j) && !j.JArray? ==> r.Err? && r.error == [InvalidList]
    ensures r.Ok? ==> forall i :: 0 <= i < |r.value| ==> IsKey(InterestChoices, r.value[i])
    ensures j.JArray? && Truthy(j) ==>
      (r.Ok? <==> forall i :: 0 <= i < |j.items| ==> j.items[i].JString? && IsKey(InterestChoices, j.items[i].s))
    ensures j.JArray? && r.Ok? ==> |r.value| == |j.items| && forall i :: 0 <= i < |j.items| ==> r.value[i] == j.items[i].s
  {
    if !Truthy(j) then Ok([])
    else if !j.JArray? then Err([InvalidList])
    else match InterestKeys(j.items)
      case None => Err([InvalidChoice])
      case Some(keys) => Ok(keys)
  }

  datatype NewsletterData = NewsletterData(email: string, interests: seq<string>)

  /** `NewsletterForm.is_valid()` on a decoded JSON object. */
  function CleanNewsletter(fields: map<string, Json>, validEmail: string -> bool): (r: Result<NewsletterData, Errors>)
    ensures r.Ok? <==> CleanJsonEmail(Member(fields, "email"), validEmail).Ok? && CleanInterests(Member(fields, "interests")).Ok?
    ensures r.Ok? ==> validEmail(r.value.email) && r.value.email != []
    ensures r.Ok? ==> forall i :: 0 <= i < |r.value.interests| ==> IsKey(InterestChoices, r.value.interests[i])
    ensures r.Ok? ==> Member(fields, "email").JString? && r.value.email == Strip(Member(fields, "email").s)
    ensures r.Ok? ==> r.value.interests == CleanInterests(Member(fields, "interests")).value
    ensures r.Err? ==> r.error != map[]
  {
    var email := CleanJsonEmail(Member(fields, "email"), validEmail);
    var interests := CleanInterests(Member(fields, "interests"));
    if email.Ok? && interests.Ok? then Ok(NewsletterData(email.value, interests.value))
    else Err(AddProblem(AddProblem(map[], "email", Problems(email)), "interests", Problems(interests)))
  }

  // ---------------------------------------------------------------------------
  // QuoteRequestForm
  // ---------------------------------------------------------------------------

  const CompanyNameSpec := CharSpec(true, None, Some(100), false)
  const ContactPersonSpec := CharSpec(true, None, Some(100), false)
  const QuotePhoneSpec := CharSpec(true, None, Some(20), false)
  const LocationSpec := CharSpec(true, None, Some(200), false)
  const RequirementsSpec := CharSpec(false, None, None, false)

  const VarietyField: Choices := [("", "Select Variety")] + QuoteVarietyChoices
  const QuantityField: Choices := [("", "Select Quantity Range")] + QuantityChoices

  datatype QuoteData = QuoteData(
    companyName: string,
    contactPerson: string,
    email: string,
    phone: string,
    variety: string,
    quantityRange: string,
    deliveryLocation: string,
    deliveryDate: int,
    additionalRequirements: string)

  /** Every field of the quote form cleans. */
  predicate QuoteValid(data: FormData, validEmail: string -> bool, parseDate: string -> Option<int>) {
    && CleanChar(CompanyNameSpec, Field(data, "company_name")).Ok?
    && CleanChar(ContactPersonSpec, Field(data, "contact_person")).Ok?
    && CleanEmail(Field(data, "email"), validEmail).Ok?
    && CleanChar(QuotePhoneSpec, Field(data, "phone")).Ok?
    && CleanChoice(VarietyField, Field(data, "variety")).Ok?
    && CleanChoice(QuantityField, Field(data, "quantity_range")).Ok?
    && CleanChar(LocationSpec, Field(data, "delivery_location")).Ok?
    && CleanDate(Field(data, "delivery_date"), parseDate).Ok?
    && CleanChar(RequirementsSpec, Field(data, "additional_requirements")).Ok?
  }

  function QuoteErrors(data: FormData, validEmail: string -> bool, parseDate: string -> Option<int>): (errors: Errors)
    ensures errors == map[] <==> QuoteValid(data, validEmail, parseDate)
  {
    var e := AddProblem(map[], "company_name", Problems(CleanChar(CompanyNameSpec, Field(data, "company_name"))));
    var e := AddProblem(e, "contact_person", Problems(CleanChar(ContactPersonSpec, Field(data, "contact_person"))));
    var e := AddProblem(e, "email", Problems(CleanEmail(Field(data, "email"), validEmail)));
    var e := AddProblem(e, "phone", Problems(CleanChar(QuotePhoneSpec, Field(data, "phone"))));
    var e := AddProblem(e, "variety", Problems(CleanChoice(VarietyField, Field(data, "variety"))));
    var e := AddProblem(e, "quantity_range", Problems(CleanChoice(QuantityField, Field(data, "quantity_range"))));
    var e := AddProblem(e, "delivery_location", Problems(CleanChar(LocationSpec, Field(data, "delivery_location"))));
    var e := AddProblem(e, "delivery_date", Problems(CleanDate(Field(data, "delivery_date"), parseDate)));
    AddProblem(e, "additional_requirements", Problems(CleanChar(RequirementsSpec, Field(data, "additional_requirements"))))
  }

  /** `QuoteRequestForm.is_valid()` and its cleaned data, or the errors by field. */
  function CleanQuote(data: FormData, validEmail: string -> bool, parseDate: string -> Option<int>): (r: Result<QuoteData, Errors>)
    ensures r.Ok? <==> QuoteValid(data, validEmail, parseDate)
    ensures r.Err? ==> r.error != map[]
    ensures r.Ok? ==>
      && r.value.variety != [] && IsKey(QuoteVarietyChoices, r.value.variety)
      && r.value.quantityRange != [] && IsKey(QuantityChoices, r.value.quantityRange)
      && validEmail(r.value.email)
      && 0 < |r.value.companyName| <= 100 && 0 < |r.value.contactPerson| <= 100
      && 0 < |r.value.phone| <= 20 && 0 < |r.value.deliveryLocation| <= 200
      && parseDate(Strip(Field(data, "delivery_date"))) == Some(r.value.deliveryDate)
    ensures r.Ok? ==>
      && r.value.companyName == Strip(Field(data, "company_name"))
      && r.value.contactPerson == Strip(Field(data, "contact_person"))
      && r.value.email == Strip(Field(data, "email"))
      && r.value.phone == Strip(Field(data, "phone"))
      && r.value.variety == Field(data, "variety")
      && r.value.quantityRange == Field(data, "quantity_range")
      && r.value.deliveryLocation == Strip(Field(data, "delivery_location"))
      && r.value.additionalRequirements == Strip(Field(data, "additional_requirements"))
  {
    var errors := QuoteErrors(data, validEmail, parseDate);
    if errors != map[] then Err(errors)
    else
      PlaceholderRejected("Select Variety", QuoteVarietyChoices, Field(data, "variety"));
      PlaceholderRejected("Select Quantity Range", QuantityChoices, Field(data, "quantity_range"));
      Ok(QuoteData(
        CleanChar(CompanyNameSpec, Field(data, "company_name")).value,
        CleanChar(ContactPersonSpec, Field(data, "contact_person")).value,
        CleanEmail(Field(data, "email"), validEmail).value,
        CleanChar(QuotePhoneSpec, Field(data, "phone")).value,
        Field(data, "variety"),
        Field(data, "quantity_range"),
        CleanChar(LocationSpec, Field(data, "delivery_location")).value,
        CleanDate(Field(data, "delivery_date"), parseDate).value,
        CleanChar(RequirementsSpec, Field(data, "additional_requirements")).value))
  }

  /** The quote form checks the phone's length only: any short text passes, unlike the contact form's pattern. */
  lemma QuotePhoneIsFreeText(raw: string)
    requires Trimmed(raw) && 0 < |raw| <= 20 && '\0' !in raw
    ensures CleanChar(QuotePhoneSpec, raw).Ok? && CleanChar(QuotePhoneSpec, raw).value == raw
  {
    assert Validators(QuotePhoneSpec, raw) == [];
    CleanCharTrimmed(QuotePhoneSpec, raw);
  }
}

=== FILE: main_models.dfy ===
/**
  The records of the public site: contact messages, newsletter subscriptions
  and quote requests, with their choice lists, defaults, validators and
  string forms. Times are integer microsecond timestamps supplied by the
  caller.
 */
module MainModels {
  import opened Wrappers
  import opened Text
  import opened Numerals
  import opened Records

  // ---------------------------------------------------------------------------
  // The phone validator `^\+?1?\d{9,15}$`
  // ---------------------------------------------------------------------------

  /** `$` in Python matches at the end of the text or just before a final newline. */
  predicate EndAnchor(t: string) {
    t == [] || t == "\n"
  }

  /** `\d{n}$`: the first n characters are digits and only the end anchor follows. */
  predicate DigitRun(t: string, n: nat) {
    n <= |t| && AllDigits(t[..n]) && EndAnchor(t[n..])
  }

  /** `\d{9,15}$`. */
  predicate DigitsToEnd(t: string) {
    exists n :: 9 <= n <= 15 && DigitRun(t, n)
  }

  /** `1?\d{9,15}$`: with or without a leading '1'. */
  predicate OptionalOne(t: string) {
    DigitsToEnd(t) || (t != [] && t[0] == '1' && DigitsToEnd(t[1..]))
  }

  /**
    The regular expression as written, anchored at the start (the validator
    searches, and `^` pins the match there): with or without a leading '+'.
   */
  predicate PhoneRegex(s: string) {
    OptionalOne(s) || (s != [] && s[0] == '+' && OptionalOne(s[1..]))
  }

  /** s without one final newline. */
  function DropNewline(s: string): (r: string)
    ensures |r| <= |s| && r == s[..|r|]
  {
    if s != [] && s[|s| - 1] == '\n' then s[..|s| - 1] else s
  }

  /** The part of a phone text that must be digits: no final newline, no leading '+'. */
  function PhoneDigits(s: string): (r: string)
    ensures |r| <= |s|
  {
    var b := DropNewline(s);
    if b != [] && b[0] == '+' then b[1..] else b
  }

  /**
    The accepted phone texts in closed form: an optional '+', then only
    digits, 9 to 15 of them, or 16 when the first is the country code '1'.
   */
  predicate PhoneShape(s: string) {
    var d := PhoneDigits(s);
    AllDigits(d) && (9 <= |d| <= 15 || (|d| == 16 && d[0] == '1'))
  }

  lemma DigitsToEndShape(t: string)
    ensures DigitsToEnd(t) <==> AllDigits(DropNewline(t)) && 9 <= |DropNewline(t)| <= 15
  {
    var b := DropNewline(t);
    if DigitsToEnd(t) {
      var n :| 9 <= n <= 15 && DigitRun(t, n);
      if t[n..] == [] {
        assert t[..n] == t;
        assert IsDigit(t[|t| - 1]);
      } else {
        assert t[n..][0] == t[|t| - 1];
        assert b == t[..n];
      }
    }
    if AllDigits(b) && 9 <= |b| <= 15 {
      assert t[..|b|] == b;
      if |b| < |t| {
        assert t[|b|..] == "\n";
      }
      assert DigitRun(t, |b|);
    }
  }

  /** Dropping a first character that is not the final newline commutes with dropping the newline. */
  lemma DropNewlineTail(t: string)
    requires t != [] && t[0] != '\n'
    ensures DropNewline(t) != [] && DropNewline(t)[0] == t[0]
    ensures DropNewline(t[1..]) == DropNewline(t)[1..]
  {
    if |t| > 1 && t[|t| - 1] == '\n' {
      assert t[1..][..|t| - 2] == t[..|t| - 1][1..];
    }
  }

  lemma OptionalOneShape(t: string)
    ensures OptionalOne(t) <==>
      var b := DropNewline(t);
      AllDigits(b) && (9 <= |b| <= 15 || (|b| == 16 && b[0] == '1'))
  {
    var b := DropNewline(t);
    DigitsToEndShape(t);
    if t != [] && t[0] == '1' {
      DropNewlineTail(t);
      DigitsToEndShape(t[1..]);
      assert AllDigits(b) <==> AllDigits(b[1..]) by {
        if AllDigits(b[1..]) {
          forall i | 0 <= i < |b| ensures IsDigit(b[i]) {
            if i > 0 { assert b[i] == b[1..][i - 1]; }
          }
        }
      }
    }
  }

  /** The regular expression accepts exactly the texts of the closed form. */
  lemma PhonePattern(s: string)
    ensures PhoneRegex(s) <==> PhoneShape(s)
  {
    OptionalOneShape(s);
    var b := DropNewline(s);
    if s != [] && s[0] == '+' {
      DropNewlineTail(s);
      OptionalOneShape(s[1..]);
      assert !IsDigit(b[0]);
    }
  }

  /**
    The validator decided by one left-to-right scan: skip a '+', then check
    that the remaining characters up to an optional final newline are digits
    and count them.
   */
  method MatchPhone(s: string) returns (ok: bool)
    ensures ok == PhoneRegex(s)
  {
    var end := |s|;
    if end > 0 && s[end - 1] == '\n' {
      end := end - 1;
    }
    var start := 0;
    if start < end && s[start] == '+' {
      start := 1;
    }
    var digits := true;
    var i := start;
    while i < end
      invariant start <= i <= end
      invariant digits == forall j :: start <= j < i ==> IsDigit(s[j])
    {
      digits := digits && IsDigit(s[i]);
      i := i + 1;
    }
    var n := end - start;
    ok := digits && (9 <= n <= 15 || (n == 16 && s[start] == '1'));
    assert s[start..end] == PhoneDigits(s);
    assert digits == AllDigits(s[start..end]) by {
      forall j | 0 <= j < end - start ensures s[start..end][j] == s[start + j] { }
    }
    PhonePattern(s);
  }

  /** A text with no surrounding whitespace that matches has at most 17 characters: '+' and 16 digits. */
  lemma TrimmedPhoneLength(s: string)
    requires Trimmed(s) && PhoneRegex(s)
    ensures |s| <= 17 && '\0' !in s
  {
    PhonePattern(s);
    assert DropNewline(s) == s;
  }

  /**
    The validation message promises "up to 15 digits", but a leading
    country code '1' lets 16 digits through.
   */
  lemma SixteenDigitsAccepted(d: string)
    requires |d| == 15 && AllDigits(d)
    ensures PhoneRegex("+1" + d) && |PhoneDigits("+1" + d)| == 16
  {
    var s := "+1" + d;
    assert DropNewline(s) == s;
    assert PhoneDigits(s) == "1" + d;
    assert AllDigits("1" + d) by {
      forall i | 0 <= i < 16 ensures IsDigit(("1" + d)[i]) {
        if i > 0 { assert ("1" + d)[i] == d[i - 1]; }
      }
    }
    PhonePattern(s);
  }

  // ---------------------------------------------------------------------------
  // ContactMessage
  // ---------------------------------------------------------------------------

  const SubjectChoices: Choices := [
    ("general", "General Inquiry"), ("wholesale", "Wholesale Orders"),
    ("supply", "Supply Partnership"), ("quality", "Quality Concerns"),
    ("support", "Customer Support"), ("other", "Other")]

  const ContactStatusChoices: Choices := [
    ("new", "New"), ("in_progress", "In Progress"), ("resolved", "Resolved"), ("closed", "Closed")]

  /** One week in microseconds. */
  const Week: int := 7 * 24 * 60 * 60 * 1_000_000

  datatype ContactMessage = ContactMessage(
    name: string,
    email: string,
    phone: string,
    company: string,
    subject: string,
    message: string,
    status: string,
    sentAt: int,
    updatedAt: int,
    adminNotes: string)

  /** The model-level phone field: optional, at most 17 characters, and matching the pattern when given. */
  predicate ValidContactPhone(phone: string) {
    phone == [] || (PhoneRegex(phone) && |phone| <= 17)
  }

  /**
    What `full_clean` demands of a contact message. `validEmail` stands for
    the email validator; the model field adds its 254-character limit.
   */
  predicate ValidContactMessage(m: ContactMessage, validEmail: string -> bool) {
    && m.name != [] && FitsChar(m.name, 100, [])
    && validEmail(m.email) && |m.email| <= 254
    && ValidContactPhone(m.phone)
    && FitsChar(m.company, 100, [])
    && m.subject != [] && FitsChar(m.subject, 20, SubjectChoices)
    && m.message != []
    && FitsChar(m.status, 20, ContactStatusChoices)
  }

  /** A message created with only the required fields: the general subject, status 'new', no phone or company. */
  function NewContactMessage(name: string, email: string, message: string, now: int): (m: ContactMessage)
    ensures m.subject == "general" && Label(SubjectChoices, m.subject) == "General Inquiry"
    ensures m.status == "new" && Label(ContactStatusChoices, m.status) == "New"
    ensures m.sentAt == now && m.updatedAt == now
    ensures m.name == name && m.email == email && m.message == message
    ensures m.phone == [] && m.company == [] && m.adminNotes == []
    ensures forall validEmail: string -> bool ::
              name != [] && |name| <= 100 && validEmail(email) && |email| <= 254 && message != [] ==>
              ValidContactMessage(m, validEmail)
  {
    LabelOfKey(SubjectChoices, 0);
    LabelOfKey(ContactStatusChoices, 0);
    ContactMessage(name, email, "", "", "general", message, "new", now, now, "")
  }

  /** `ContactMessage.is_recent`: sent no earlier than a week before now, the boundary included. */
  function IsRecent(m: ContactMessage, now: int): (recent: bool)
    ensures recent <==> now - m.sentAt <= Week
    ensures m.sentAt >= now ==> recent
  {
    m.sentAt >= now - Week
  }

  /** Exactly a week old is still recent; a microsecond more is not. */
  lemma RecentBoundary(m: ContactMessage, now: int)
    ensures m.sentAt == now - Week ==> IsRecent(m, now)
    ensures m.sentAt == now - Week - 1 ==> !IsRecent(m, now)
  {
  }

  /** A message stops being recent as time passes, and never becomes recent again. */
  lemma RecentFades(m: ContactMessage, now: int, later: int)
    requires now <= later && IsRecent(m, later)
    ensures IsRecent(m, now)
  {
  }

  /** `ContactMessage.__str__`. */
  function ContactMessageText(m: ContactMessage): (r: string)
    ensures |r| >= 13 + |m.name| && r[..13] == "Message from " && r[13..13 + |m.name|] == m.name
  {
    "Message from " + m.name + " - " + Label(SubjectChoices, m.subject)
  }

  /** The text ends with the subject's label for a listed subject, and with the raw subject otherwise. */
  lemma ContactMessageSubjects(m: ContactMessage, i: nat)
    requires i < |SubjectChoices|
    ensures m.subject == SubjectChoices[i].0 ==>
              ContactMessageText(m) == "Message from " + m.name + " - " + SubjectChoices[i].1
    ensures !IsKey(SubjectChoices, m.subject) ==>
              ContactMessageText(m) == "Message from " + m.name + " - " + m.subject
  {
    LabelOfKey(SubjectChoices, i);
  }

  // ---------------------------------------------------------------------------
  // Newsletter
  // ---------------------------------------------------------------------------

  datatype Newsletter = Newsletter(email: string, interests: seq<string>, subscribedAt: int, isActive: bool)

  /** A subscription as created with only an email: no interests, active. */
  function NewNewsletter(email: string, now: int): (n: Newsletter)
    ensures n.email == email && n.interests == [] && n.isActive && n.subscribedAt == now
  {
    Newsletter(email, [], now, true)
  }

  /**
    The subscriptions table, keyed by email: the unique column makes the
    email a key, and each row is stored under its own email.
   */
  type Subscribers = map<string, Newsletter>

  predicate KeyedByEmail(t: Subscribers) {
    forall e :: e in t ==> t[e].email == e
  }

  /** `Newsletter.__str__`. */
  function NewsletterText(n: Newsletter): (r: string)
    ensures |r| > |n.email| && r[..|n.email|] == n.email
  {
    n.email + (if n.isActive then " (Active)" else " (Inactive)")
  }

  /** Reads the state back from the text: "(Active)" or "(Inactive)" at the end. */
  function StateOf(s: string): Option<bool> {
    if |s| >= 9 && s[|s| - 9..] == " (Active)" then Some(true)
    else if |s| >= 11 && s[|s| - 11..] == " (Inactive)" then Some(false)
    else None
  }

  /** The text gives back the email and whether the subscription is active. */
  lemma NewsletterTextRoundTrip(n: Newsletter)
    ensures StateOf(NewsletterText(n)) == Some(n.isActive)
    ensures NewsletterText(n)[..|n.email|] == n.email
  {
    var r := NewsletterText(n);
    if n.isActive {
      assert r[|r| - 9..] == " (Active)";
    } else {
      assert r[|r| - 11..] == " (Inactive)";
      assert r[|r| - 9..] != " (Active)" by {
        assert r[|r| - 9..][2] == 'a';
      }
    }
  }

  // ---------------------------------------------------------------------------
  // QuoteRequest
  // ---------------------------------------------------------------------------

  const QuoteVarietyChoices: Choices := [
    ("russet", "Russet Burbank"), ("red", "Red Pontiac"), ("yukon", "Yukon Gold"),
    ("fingerling", "Fingerling"), ("sweet", "Sweet Potato"), ("mixed", "Mixed Varieties")]

  const QuantityChoices: Choices := [
    ("small", "1-50 kg"), ("medium", "51-500 kg"), ("large", "501-2000 kg"), ("bulk", "2000+ kg")]

  const QuoteStatusChoices: Choices := [
    ("pending", "Pending"), ("quoted", "Quote Sent"), ("accepted", "Accepted"),
    ("rejected", "Rejected"), ("expired", "Expired")]

  datatype QuoteRequest = QuoteRequest(
    companyName: string,
    contactPerson: string,
    email: string,
    phone: string,
    variety: string,
    quantityRange: string,
    deliveryLocation: string,
    deliveryDate: int,
    additionalRequirements: string,
    status: string,
    quotedPrice: Option<int>,
    createdAt: int)

  /** A request as created from the submitted fields: pending, with no quoted price yet. */
  function NewQuoteRequest(
    companyName: string, contactPerson: string, email: string, phone: string,
    variety: string, quantityRange: string, deliveryLocation: string,
    deliveryDate: int, additionalRequirements: string, now: int): (q: QuoteRequest)
    ensures q.status == "pending" && Label(QuoteStatusChoices, q.status) == "Pending"
    ensures q.quotedPrice.None? && q.createdAt == now
    ensures q.variety == variety && q.quantityRange == quantityRange && q.email == email
    ensures q.companyName == companyName && q.contactPerson == contactPerson && q.phone == phone
    ensures q.deliveryLocation == deliveryLocation && q.deliveryDate == deliveryDate
    ensures q.additionalRequirements == additionalRequirements
  {
    LabelOfKey(QuoteStatusChoices, 0);
    QuoteRequest(companyName, contactPerson, email, phone, variety, quantityRange,
                 deliveryLocation, deliveryDate, additionalRequirements, "pending", None, now)
  }

  /** `QuoteRequest.__str__`. */
  function QuoteRequestText(q: QuoteRequest): (r: string)
    ensures |r| >= 19 + |q.companyName| && r[..19] == "Quote Request from " && r[19..19 + |q.companyName|] == q.companyName
  {
    "Quote Request from " + q.companyName + " - " + Label(QuoteVarietyChoices, q.variety)
  }

  /** The text ends with the variety's label for a listed variety, and with the raw variety otherwise. */
  lemma QuoteRequestVarieties(q: QuoteRequest, i: nat)
    requires i < |QuoteVarietyChoices|
    ensures q.variety == QuoteVarietyChoices[i].0 ==>
              QuoteRequestText(q) == "Quote Request from " + q.companyName + " - " + QuoteVarietyChoices[i].1
    ensures !IsKey(QuoteVarietyChoices, q.variety) ==>
              QuoteRequestText(q) == "Quote Request from " + q.companyName + " - " + q.variety
  {
    LabelOfKey(QuoteVarietyChoices, i);
  }

  /** The quote list has a mixed-varieties choice that the seed batch list lacks. */
  lemma MixedVariety(q: QuoteRequest)
    requires q.variety == "mixed"
    ensures QuoteRequestText(q) == "Quote Request from " + q.companyName + " - Mixed Varieties"
    ensures !IsKey(VarietyChoices, q.variety)
  {
    LabelOfKey(QuoteVarietyChoices, 5);
  }
}

=== FILE: main_views.dfy ===
/**
  The POST handlers of the public site: the contact form, the quote request
  and the newsletter signup. Each handler takes the stored table and the
  submitted data and returns the new table with what the client sees. The
  database and the mail server are not modelled: `dbOk` says whether the
  database calls succeed, `mailRaises` whether sending the notification
  raises, and the outcome records the mail that is handed over and whether
  an error was logged.
 */
module MainViews {
  import opened Wrappers
  import opened Text
  import opened Records
  import opened MainModels
  import opened MainForms

  /** The JSON the client receives: `success`, `message`, and `errors` when the form was invalid. */
  datatype Response = Response(success: bool, message: string, errors: Option<Errors>)

  /** A notification handed to the mailer: recipient, subject, and the line that varies with the request. */
  datatype Mail = Mail(to: string, subject: string, detail: string)

  // ---------------------------------------------------------------------------
  // Newsletter signup
  // ---------------------------------------------------------------------------

  /** A request body as `json.loads` reads it. */
  datatype Body = Malformed | Decoded(value: Json)

  const Subscribed := "Thank you for subscribing to our newsletter!"
  const PreferencesUpdated := "Your newsletter preferences have been updated!"
  const EnterValidEmail := "Please enter a valid email address."
  const InvalidFormat := "Invalid request format."
  const SubscriptionFailed := "Sorry, there was an error processing your subscription."
  const NoInterests := "All our latest news and products"

  datatype SignupOutcome = SignupOutcome(store: Subscribers, response: Response, mail: Option<Mail>, logged: bool)

  /**
    `get_or_create` by email, then on an existing row the new interests and
    `is_active = True`: a new row is active with the given interests; an
    existing row keeps its email and subscription time.
   */
  function Upsert(store: Subscribers, email: string, interests: seq<string>, now: int): (r: Subscribers)
    ensures r.Keys == store.Keys + {email}
    ensures forall k :: k in store && k != email ==> r[k] == store[k]
    ensures email !in store ==> r[email] == Newsletter(email, interests, now, true)
    ensures email in store ==> r[email] == store[email].(interests := interests, isActive := true)
  {
    if email in store then store[email := store[email].(interests := interests, isActive := true)]
    else store[email := Newsletter(email, interests, now, true)]
  }

  /** The interests line of the welcome mail: the keys joined by ", ", or a fixed sentence for none. */
  function InterestLine(interests: seq<string>): string {
    if interests == [] then NoInterests else Join(interests, ", ")
  }

  /** Whether the body is an object whose fields pass the newsletter form. */
  predicate SignupValid(body: Body, validEmail: string -> bool) {
    body.Decoded? && body.value.JObject? && CleanNewsletter(body.value.fields, validEmail).Ok?
  }

  /** The cleaned submission of a valid body. */
  function Submitted(body: Body, validEmail: string -> bool): NewsletterData
    requires SignupValid(body, validEmail)
  {
    CleanNewsletter(body.value.fields, validEmail).value
  }

  /**
    `NewsletterSignupView.post`. A body that is not JSON is a bad format;
    JSON null leaves the form unbound, hence invalid; any other value that
    is not an object fails on field lookup and takes the generic error, as
    does a database failure; an invalid form asks for a valid email.
   */
  function Signup(store: Subscribers, body: Body, validEmail: string -> bool, dbOk: bool, mailRaises: bool, now: int): (out: SignupOutcome)
    ensures out.response.success <==> SignupValid(body, validEmail) && dbOk
    ensures !out.response.success ==> out.store == store && out.mail.None?
    ensures out.response.success ==>
      var d := Submitted(body, validEmail);
      && out.store == Upsert(store, d.email, d.interests, now)
      && out.response.message == (if d.email in store then PreferencesUpdated else Subscribed)
      && out.mail == Some(Mail(d.email, "Welcome to Potato Company Newsletter", InterestLine(d.interests)))
    ensures body.Malformed? ==> out.response.message == InvalidFormat
    ensures body.Decoded? && (body.value.JNull? || (body.value.JObject? && CleanNewsletter(body.value.fields, validEmail).Err?)) ==>
              out.response.message == EnterValidEmail && out.response.errors.Some?
    ensures body.Decoded? && !body.value.JNull? && !body.value.JObject? ==> out.response.message == SubscriptionFailed
  {
    match body
    case Malformed => SignupOutcome(store, Response(false, InvalidFormat, None), None, false)
    case Decoded(JNull) => SignupOutcome(store, Response(false, EnterValidEmail, Some(map[])), None, false)
    case Decoded(JObject(fields)) =>
      (match CleanNewsletter(fields, validEmail)
      case Err(errors) => SignupOutcome(store, Response(false, EnterValidEmail, Some(errors)), None, false)
      case Ok(d) =>
        if !dbOk then SignupOutcome(store, Response(false, SubscriptionFailed, None), None, true)
        else
          var message := if d.email in store then PreferencesUpdated else Subscribed;
          var mail := Mail(d.email, "Welcome to Potato Company Newsletter", InterestLine(d.interests));
          SignupOutcome(Upsert(store, d.email, d.interests, now), Response(true, message, None), Some(mail), mailRaises))
    case Decoded(_) => SignupOutcome(store, Response(false, SubscriptionFailed, None), None, true)
  }

  /** A new email gets exactly one new row: the submitted interests, active, subscribed now. */
  lemma SignupCreates(store: Subscribers, body: Body, validEmail: string -> bool, mailRaises: bool, now: int)
    requires SignupValid(body, validEmail) && Submitted(body, validEmail).email !in store
    ensures var out := Signup(store, body, validEmail, true, mailRaises, now);
            var d := Submitted(body, validEmail);
            && out.response.success && out.response.message == Subscribed
            && |out.store| == |store| + 1
            && out.store[d.email] == Newsletter(d.email, d.interests, now, true)
  {
    var d := Submitted(body, validEmail);
    var out := Signup(store, body, validEmail, true, mailRaises, now);
    assert out.store.Keys == store.Keys + {d.email};
    assert |store.Keys + {d.email}| == |store.Keys| + 1;
  }

  /**
    A known email gets its interests replaced and is active again, even if it
    had unsubscribed; no row is added and its subscription time stays.
   */
  lemma SignupUpdates(store: Subscribers, body: Body, validEmail: string -> bool, mailRaises: bool, now: int)
    requires SignupValid(body, validEmail) && Submitted(body, validEmail).email in store
    ensures var out := Signup(store, body, validEmail, true, mailRaises, now);
            var d := Submitted(body, validEmail);
            && out.response.success && out.response.message == PreferencesUpdated
            && |out.store| == |store|
            && out.store[d.email].interests == d.interests && out.store[d.email].isActive
            && out.store[d.email].subscribedAt == store[d.email].subscribedAt
  {
    var d := Submitted(body, validEmail);
    var out := Signup(store, body, validEmail, true, mailRaises, now);
    assert out.store == Upsert(store, d.email, d.interests, now);
    UpsertExisting(store, d.email, d.interests, now);
  }

  /** Upserting a known email keeps the number of rows and the row's subscription time. */
  lemma UpsertExisting(store: Subscribers, email: string, interests: seq<string>, now: int)
    requires email in store
    ensures var r := Upsert(store, email, interests, now);
            |r| == |store| && r[email].interests == interests && r[email].isActive
            && r[email].subscribedAt == store[email].subscribedAt
  {
    assert Upsert(store, email, interests, now).Keys == store.Keys;
  }

  /** The upsert keeps rows under their own email, keeps every key, and adds at most one. */
  lemma UpsertKeepsKeyed(store: Subscribers, email: string, interests: seq<string>, now: int)
    requires KeyedByEmail(store)
    ensures var r := Upsert(store, email, interests, now);
            KeyedByEmail(r) && store.Keys <= r.Keys && |r| <= |store| + 1
  {
    var r := Upsert(store, email, interests, now);
    forall k | k in r
      ensures r[k].email == k
    {
      if k != email {
        assert r[k] == store[k];
      }
    }
    if email in store {
      assert r.Keys == store.Keys;
    } else {
      assert |store.Keys + {email}| == |store.Keys| + 1;
    }
  }

  /** A signup touches no other subscriber and keeps every row stored under its own email. */
  lemma SignupKeepsOthers(store: Subscribers, body: Body, validEmail: string -> bool, dbOk: bool, mailRaises: bool, now: int)
    requires KeyedByEmail(store)
    ensures var out := Signup(store, body, validEmail, dbOk, mailRaises, now);
            && KeyedByEmail(out.store)
            && store.Keys <= out.store.Keys && |out.store| <= |store| + 1
            && forall k :: k in store && (!out.response.success || k != Submitted(body, validEmail).email) ==> out.store[k] == store[k]
  {
    var out := Signup(store, body, validEmail, dbOk, mailRaises, now);
    if out.response.success {
      var d := Submitted(body, validEmail);
      assert out.store == Upsert(store, d.email, d.interests, now);
      UpsertKeepsKeyed(store, d.email, d.interests, now);
    } else {
      assert out.store == store;
    }
  }

  /** Sending the same signup twice leaves the table as the first left it; the second reports an update. */
  lemma SignupIdempotent(store: Subscribers, body: Body, validEmail: string -> bool, mailRaises: bool, now: int, later: int)
    requires SignupValid(body, validEmail)
    ensures var first := Signup(store, body, validEmail, true, mailRaises, now);
            var second := Signup(first.store, body, validEmail, true, mailRaises, later);
            && second.store == first.store
            && second.response.success && second.response.message == PreferencesUpdated
  {
    var d := Submitted(body, validEmail);
    var first := Signup(store, body, validEmail, true, mailRaises, now);
    var second := Signup(first.store, body, validEmail, true, mailRaises, later);
    assert first.store == Upsert(store, d.email, d.interests, now);
    UpsertTwice(store, d.email, d.interests, now, later);
    assert d.email in first.store;
  }

  /** Upserting the same email and interests again changes nothing, whenever it happens. */
  lemma UpsertTwice(store: Subscribers, email: string, interests: seq<string>, now: int, later: int)
    ensures var once := Upsert(store, email, interests, now);
            Upsert(once, email, interests, later) == once
  {
    var once := Upsert(store, email, interests, now);
    assert once[email].(interests := interests, isActive := true) == once[email];
  }

  /** Whether the welcome mail fails changes neither the table nor the response; it is only logged. */
  lemma SignupMailIsolated(store: Subscribers, body: Body, validEmail: string -> bool, dbOk: bool, now: int)
    ensures var a := Signup(store, body, validEmail, dbOk, false, now);
            var b := Signup(store, body, validEmail, dbOk, true, now);
            a.store == b.store && a.response == b.response && a.mail == b.mail
  {
  }

  /** The interest keys hold no comma, so the welcome line splits back into them. */
  lemma InterestLineRoundTrip(interests: seq<string>)
    requires interests != []
    requires forall i :: 0 <= i < |interests| ==> IsKey(InterestChoices, interests[i])
    ensures SplitOn(InterestLine(interests), ", ") == interests
  {
    forall i | 0 <= i < |interests| ensures ',' !in interests[i] {
      InterestKeyHasNoComma(interests[i]);
    }
    SplitJoinRoundTrip(interests, ", ");
  }

  lemma InterestKeyHasNoComma(k: string)
    requires IsKey(InterestChoices, k)
    ensures ',' !in k
  {
    var i :| 0 <= i < |InterestChoices| && InterestChoices[i].0 == k;
  }

  /** With no interests chosen the welcome line is the fixed sentence, which no list of keys produces. */
  lemma NoInterestsLine(interests: seq<string>)
    requires forall i :: 0 <= i < |interests| ==> IsKey(InterestChoices, interests[i])
    ensures InterestLine(interests) == NoInterests <==> interests == []
  {
    if interests != [] {
      assert ',' !in NoInterests && |NoInterests| > 9;
      NotAKeyLine(interests, NoInterests);
    }
  }

  /** A comma-free text longer than every key is not the welcome line of any chosen interests. */
  lemma NotAKeyLine(interests: seq<string>, s: string)
    requires interests != []
    requires forall i :: 0 <= i < |interests| ==> IsKey(InterestChoices, interests[i])
    requires ',' !in s && |s| > 9
    ensures InterestLine(interests) != s
  {
    if InterestLine(interests) == s {
      InterestLineRoundTrip(interests);
      FindInPlain(s, ", ");
      assert SplitOn(s, ", ") == [s];
      InterestKeyIsShort(interests[0]);
    }
  }

  lemma InterestKeyIsShort(k: string)
    requires IsKey(InterestChoices, k)
    ensures |k| <= 9
  {
    var i :| 0 <= i < |InterestChoices| && InterestChoices[i].0 == k;
  }

  // ---------------------------------------------------------------------------
  // Quote request
  // ---------------------------------------------------------------------------

  const QuoteSubmitted := "Quote request submitted successfully! We'll send you a detailed quote within 2 business days."
  const QuoteFailed := "Sorry, there was an error processing your request. Please try again."
  const QuoteInvalid := "Please correct the form errors and try again."

  datatype QuoteOutcome = QuoteOutcome(table: seq<QuoteRequest>, response: Response, mail: Option<Mail>, logged: bool)

  /** The row `QuoteRequest.objects.create(**cleaned_data)` stores. */
  function CreateQuote(q: QuoteData, now: int): QuoteRequest {
    NewQuoteRequest(q.companyName, q.contactPerson, q.email, q.phone, q.variety, q.quantityRange,
                    q.deliveryLocation, q.deliveryDate, q.additionalRequirements, now)
  }

  /** The stored request carries every cleaned field unchanged. */
  predicate HoldsQuote(row: QuoteRequest, q: QuoteData) {
    && row.companyName == q.companyName && row.contactPerson == q.contactPerson
    && row.email == q.email && row.phone == q.phone
    && row.variety == q.variety && row.quantityRange == q.quantityRange
    && row.deliveryLocation == q.deliveryLocation && row.deliveryDate == q.deliveryDate
    && row.additionalRequirements == q.additionalRequirements
  }

  /** The stored request holds what was submitted: the texts stripped, the choices as sent, the date as parsed. */
  predicate QuoteFromForm(row: QuoteRequest, data: FormData, parseDate: string -> Option<int>) {
    && row.companyName == Strip(Field(data, "company_name"))
    && row.contactPerson == Strip(Field(data, "contact_person"))
    && row.email == Strip(Field(data, "email"))
    && row.phone == Strip(Field(data, "phone"))
    && row.variety == Field(data, "variety")
    && row.quantityRange == Field(data, "quantity_range")
    && row.deliveryLocation == Strip(Field(data, "delivery_location"))
    && parseDate(Strip(Field(data, "delivery_date"))) == Some(row.deliveryDate)
    && row.additionalRequirements == Strip(Field(data, "additional_requirements"))
  }

  /** The answer to a cleaned quote form: store the request and confirm it, or report why not. */
  function QuoteAnswer(table: seq<QuoteRequest>, cleaned: Result<QuoteData, Errors>, dbOk: bool, mailRaises: bool, now: int): (out: QuoteOutcome)
    requires cleaned.Ok? ==> IsKey(QuoteVarietyChoices, cleaned.value.variety) && IsKey(QuantityChoices, cleaned.value.quantityRange)
    requires cleaned.Err? ==> cleaned.error != map[]
    ensures out.response.success <==> cleaned.Ok? && dbOk
    ensures !out.response.success ==> out.table == table && out.mail.None?
    ensures out.response.success ==>
      && |out.table| == |table| + 1 && out.table[..|table|] == table
      && out.table[|table|].status == "pending" && out.table[|table|].quotedPrice.None?
      && IsKey(QuoteVarietyChoices, out.table[|table|].variety)
      && IsKey(QuantityChoices, out.table[|table|].quantityRange)
      && out.response.message == QuoteSubmitted
    ensures out.response.success ==> HoldsQuote(out.table[|table|], cleaned.value) && out.table[|table|].createdAt == now
    ensures cleaned.Err? ==> out.response.message == QuoteInvalid && out.response.errors == Some(cleaned.error)
    ensures cleaned.Ok? && !dbOk ==> out.response.message == QuoteFailed
  {
    match cleaned
    case Err(errors) => QuoteOutcome(table, Response(false, QuoteInvalid, Some(errors)), None, false)
    case Ok(q) =>
      if !dbOk then QuoteOutcome(table, Response(false, QuoteFailed, None), None, true)
      else
        var row := CreateQuote(q, now);
        var mail := Mail(q.email, "Quote Request Received - Potato Company", Label(QuoteVarietyChoices, q.variety));
        QuoteOutcome(table + [row], Response(true, QuoteSubmitted, None), Some(mail), mailRaises)
  }

  /** `QuoteRequestView.post`: the quote form, then the answer to it. */
  function QuotePost(
    table: seq<QuoteRequest>, data: FormData, validEmail: string -> bool, parseDate: string -> Option<int>,
    dbOk: bool, mailRaises: bool, now: int): (out: QuoteOutcome)
    ensures out.response.success <==> CleanQuote(data, validEmail, parseDate).Ok? && dbOk
    ensures !out.response.success ==> out.table == table
    ensures out.response.success ==>
      && |out.table| == |table| + 1 && out.table[..|table|] == table
      && out.table[|table|].status == "pending" && IsKey(QuoteVarietyChoices, out.table[|table|].variety)
    ensures out.response.success ==> QuoteFromForm(out.table[|table|], data, parseDate)
    ensures !QuoteValid(data, validEmail, parseDate) ==>
      out.response == Response(false, QuoteInvalid, Some(QuoteErrors(data, validEmail, parseDate)))
  {
    QuoteAnswer(table, CleanQuote(data, validEmail, parseDate), dbOk, mailRaises, now)
  }

  /** Whether the confirmation mail fails changes neither the table nor the response. */
  lemma QuoteMailIsolated(table: seq<QuoteRequest>, cleaned: Result<QuoteData, Errors>, dbOk: bool, now: int)
    requires cleaned.Ok? ==> IsKey(QuoteVarietyChoices, cleaned.value.variety) && IsKey(QuantityChoices, cleaned.value.quantityRange)
    requires cleaned.Err? ==> cleaned.error != map[]
    ensures var a := QuoteAnswer(table, cleaned, dbOk, false, now);
            var b := QuoteAnswer(table, cleaned, dbOk, true, now);
            a.table == b.table && a.response == b.response && a.mail == b.mail
  {
  }

  // ---------------------------------------------------------------------------
  // Contact form
  // ---------------------------------------------------------------------------

  const ContactThanks := "Thank you for your message! We'll get back to you within 24 hours."
  const ContactFailed := "Sorry, there was an error processing your message. Please try again."
  const ContactInvalid := "Please correct the errors below and try again."
  const DefaultAdmin := "admin@potatocompany.com"

  datatype Flash = Success(text: string) | Failure(text: string)

  /** A redirect back to the contact page, or the page rendered again with the form's errors. */
  datatype Page = Redirect(flash: Flash) | Render(flash: Flash, errors: Errors)

  /** The stored message carries every cleaned field unchanged. */
  predicate HoldsContact(row: ContactMessage, d: ContactData) {
    && row.name == d.name && row.email == d.email && row.phone == d.phone
    && row.company == d.company && row.subject == d.subject && row.message == d.message
  }

  /** The stored message holds what was submitted: the name title-cased, the texts stripped, the subject as sent. */
  predicate ContactFromForm(row: ContactMessage, data: FormData) {
    && row.name == Title(Strip(Field(data, "name")))
    && row.email == Strip(Field(data, "email"))
    && row.phone == Strip(Field(data, "phone"))
    && row.company == Strip(Field(data, "company"))
    && row.subject == Field(data, "subject")
    && row.message == Strip(Field(data, "message"))
  }

  datatype ContactOutcome = ContactOutcome(table: seq<ContactMessage>, page: Page, mail: Option<Mail>, logged: bool)

  /**
    The answer to a cleaned contact form. `adminEmail` is the ADMIN_EMAIL
    setting when there is one; otherwise the notification goes to the
    default address.
   */
  function ContactAnswer(
    table: seq<ContactMessage>, cleaned: Result<ContactData, Errors>, validEmail: string -> bool,
    adminEmail: Option<string>, dbOk: bool, mailRaises: bool, now: int): (out: ContactOutcome)
    requires cleaned.Ok? ==> ValidContactMessage(SaveContact(cleaned.value, now), validEmail)
    ensures out.page.Redirect? <==> cleaned.Ok? && dbOk
    ensures out.page.Render? ==> out.table == table && out.mail.None? && out.page.flash.Failure?
    ensures out.page.Redirect? ==>
      && |out.table| == |table| + 1 && out.table[..|table|] == table
      && ValidContactMessage(out.table[|table|], validEmail)
      && out.table[|table|].status == "new" && out.table[|table|].sentAt == now
      && out.page.flash == Success(ContactThanks)
    ensures out.page.Redirect? ==> HoldsContact(out.table[|table|], cleaned.value)
    ensures out.mail.Some? ==> out.mail.value.to == (if adminEmail.Some? then adminEmail.value else DefaultAdmin)
    ensures cleaned.Err? ==> out.page == Render(Failure(ContactInvalid), cleaned.error)
    ensures cleaned.Ok? && !dbOk ==> out.page == Render(Failure(ContactFailed), map[])
  {
    match cleaned
    case Err(errors) => ContactOutcome(table, Render(Failure(ContactInvalid), errors), None, false)
    case Ok(d) =>
      if !dbOk then ContactOutcome(table, Render(Failure(ContactFailed), map[]), None, true)
      else
        var row := SaveContact(d, now);
        var to := if adminEmail.Some? then adminEmail.value else DefaultAdmin;
        var mail := Mail(to, "New Contact Form Submission: " + Label(SubjectChoices, d.subject), d.message);
        ContactOutcome(table + [row], Redirect(Success(ContactThanks)), Some(mail), mailRaises)
  }

  /** `ContactView.post`: the contact form, then the answer to it. */
  function ContactPost(
    table: seq<ContactMessage>, data: FormData, validEmail: string -> bool, adminEmail: Option<string>,
    dbOk: bool, mailRaises: bool, now: int): (out: ContactOutcome)
    ensures out.page.Redirect? <==> CleanContact(data, validEmail).Ok? && dbOk
    ensures out.page.Render? ==> out.table == table
    ensures out.page.Redirect? ==>
      && |out.table| == |table| + 1 && out.table[..|table|] == table
      && ValidContactMessage(out.table[|table|], validEmail)
    ensures out.page.Redirect? ==> ContactFromForm(out.table[|table|], data) && out.table[|table|].status == "new"
    ensures !ContactValid(data, validEmail) ==> out.page == Render(Failure(ContactInvalid), ContactErrors(data, validEmail))
  {
    var cleaned := CleanContact(data, validEmail);
    if cleaned.Ok? then
      ContactFormMakesValidMessage(data, validEmail, now);
      ContactAnswer(table, cleaned, validEmail, adminEmail, dbOk, mailRaises, now)
    else
      ContactAnswer(table, cleaned, validEmail, adminEmail, dbOk, mailRaises, now)
  }

  /** Whether the notification fails changes neither the table nor the page. */
  lemma ContactMailIsolated(
    table: seq<ContactMessage>, cleaned: Result<ContactData, Errors>, validEmail: string -> bool,
    adminEmail: Option<string>, dbOk: bool, now: int)
    requires cleaned.Ok? ==> ValidContactMessage(SaveContact(cleaned.value, now), validEmail)
    ensures var a := ContactAnswer(table, cleaned, validEmail, adminEmail, dbOk, false, now);
            var b := ContactAnswer(table, cleaned, validEmail, adminEmail, dbOk, true, now);
            a.table == b.table && a.page == b.page && a.mail == b.mail
  {
  }
}

=== FILE: numerals.dfy ===
/**
  Decimal numerals as the site reads and writes them: Python's `int(text)`,
  `format(n, "05d")`, and the fixed-point formats `.1f` and `,.2f` applied to
  Decimal values, with the rounding Python's Decimal uses (half to even).
 */
module Numerals {
  import opened Wrappers
  import opened Text

  function DigitValue(c: char): nat
    requires IsDigit(c)
  {
    c as int - '0' as int
  }

  function DigitChar(d: nat): (c: char)
    requires d < 10
    ensures IsDigit(c) && DigitValue(c) == d
  {
    ('0' as int + d) as char
  }

  predicate AllDigits(s: string) {
    forall i :: 0 <= i < |s| ==> IsDigit(s[i])
  }

  /** The number a string of decimal digits denotes; leading zeros are allowed. */
  function ValueOf(s: string): nat
    requires AllDigits(s)
  {
    if s == [] then 0 else 10 * ValueOf(s[..|s| - 1]) + DigitValue(s[|s| - 1])
  }

  function Pow10(p: nat): (r: nat)
    ensures r >= 1
  {
    if p == 0 then 1 else 10 * Pow10(p - 1)
  }

  /** `str(n)` for n >= 0: the shortest numeral denoting n. */
  function Decimal(n: nat): (r: string)
    ensures r != [] && AllDigits(r)
    ensures ValueOf(r) == n
    ensures |r| > 1 ==> r[0] != '0'
  {
    if n < 10 then [DigitChar(n)]
    else
      var r := Decimal(n / 10) + [DigitChar(n % 10)];
      assert r[..|r| - 1] == Decimal(n / 10);
      r
  }

  /** A number below 10^p (p >= 1) needs at most p digits. */
  lemma {:induction false} DecimalFits(n: nat, p: nat)
    requires p >= 1 && n < Pow10(p)
    ensures |Decimal(n)| <= p
  {
    if n >= 10 {
      assert p >= 2;
      DecimalFits(n / 10, p - 1);
    }
  }

  function Zeros(k: nat): (r: string)
    ensures |r| == k && AllDigits(r) && ValueOf(r) == 0
  {
    if k == 0 then []
    else
      var r := Zeros(k - 1) + "0";
      assert r[..k - 1] == Zeros(k - 1);
      r
  }

  lemma {:induction false} LeadingZerosAddNothing(k: nat, s: string)
    requires AllDigits(s)
    ensures AllDigits(Zeros(k) + s) && ValueOf(Zeros(k) + s) == ValueOf(s)
    decreases |s|
  {
    var z := Zeros(k) + s;
    if s == [] {
      assert z == Zeros(k);
    } else {
      assert z[..|z| - 1] == Zeros(k) + s[..|s| - 1];
      LeadingZerosAddNothing(k, s[..|s| - 1]);
    }
  }

  /** `format(n, "0{w}d")` for n >= 0: the numeral of n left-padded with zeros to at least w characters. */
  function PadDecimal(n: nat, w: nat): (r: string)
    ensures AllDigits(r) && ValueOf(r) == n
    ensures |r| == if |Decimal(n)| >= w then |Decimal(n)| else w
    ensures r == Zeros(|r| - |Decimal(n)|) + Decimal(n)
  {
    var d := Decimal(n);
    LeadingZerosAddNothing(if |d| >= w then 0 else w - |d|, d);
    if |d| >= w then
      assert Zeros(0) + d == d;
      d
    else Zeros(w - |d|) + d
  }

  // ---------------------------------------------------------------------------
  // int(text)
  // ---------------------------------------------------------------------------

  /** The digits of an integer literal: digits, with single underscores allowed between two digits. */
  predicate LiteralBody(b: string) {
    && b != []
    && IsDigit(b[0])
    && IsDigit(b[|b| - 1])
    && (forall i :: 0 <= i < |b| ==> IsDigit(b[i]) || b[i] == '_')
    && (forall i :: 0 <= i < |b| - 1 ==> b[i] != '_' || b[i + 1] != '_')
  }

  function DropUnderscores(b: string): (r: string)
    requires forall i :: 0 <= i < |b| ==> IsDigit(b[i]) || b[i] == '_'
    ensures AllDigits(r)
    ensures AllDigits(b) ==> r == b
  {
    if b == [] then []
    else (if b[0] == '_' then [] else [b[0]]) + DropUnderscores(b[1..])
  }

  /**
    Python's `int(text)` in base 10: surrounding whitespace is ignored, then an
    optional sign, then digits with single underscores between them. Anything
    else raises ValueError, modelled as None.
   */
  function ParseInt(s: string): (r: Option<int>)
    ensures '-' !in s && r.Some? ==> r.value >= 0
  {
    StripChars(s);
    ParseLiteral(Strip(s))
  }

  /** An optionally signed integer literal with nothing around it. */
  function ParseLiteral(t: string): (r: Option<int>)
    ensures '-' !in t && r.Some? ==> r.value >= 0
  {
    if t != [] && (t[0] == '+' || t[0] == '-') then
      if LiteralBody(t[1..]) then
        var v: int := ValueOf(DropUnderscores(t[1..]));
        Some(if t[0] == '-' then -v else v)
      else None
    else if LiteralBody(t) then Some(ValueOf(DropUnderscores(t)))
    else None
  }

  /** `int()` reads back any non-empty run of digits, leading zeros included. */
  lemma ParseDigits(s: string)
    requires s != [] && AllDigits(s)
    ensures ParseInt(s) == Some(ValueOf(s))
  {
    StripTrimmed(s);
    assert ParseLiteral(s) == Some(ValueOf(s)) by {
      assert IsDigit(s[0]) && IsDigit(s[|s| - 1]);
      assert LiteralBody(s);
    }
  }

  // ---------------------------------------------------------------------------
  // Rounding half to even
  // ---------------------------------------------------------------------------

  /**
    a * b by repeated addition. Rounding and scaling are stated with it so that
    their proofs stay linear; MulIsProduct ties it to `*`.
   */
  function Mul(a: nat, b: nat): nat {
    if a == 0 then 0 else b + Mul(a - 1, b)
  }

  lemma {:induction false} MulIsProduct(a: nat, b: nat)
    ensures Mul(a, b) == a * b
  {
    if a > 0 {
      MulIsProduct(a - 1, b);
    }
  }

  lemma {:induction false} MulMonotone(a: nat, b: nat, d: nat)
    requires a <= b
    ensures Mul(a, d) <= Mul(b, d)
    decreases b
  {
    if a < b {
      MulMonotone(a, b - 1, d);
    }
  }

  /** Euclidean division of n by d: quotient and remainder. */
  function DivRem(n: nat, d: nat): (qr: (nat, nat))
    requires d > 0
    ensures n == Mul(qr.0, d) + qr.1 && qr.1 < d
  {
    MulIsProduct(n / d, d);
    (n / d, n % d)
  }

  /** n/d rounded to a nearest integer; a tie goes to the even neighbour (ROUND_HALF_EVEN). */
  function RoundHalfEven(n: nat, d: nat): (q: nat)
    requires d > 0
    ensures 2 * (n - Mul(q, d)) <= d && 2 * (Mul(q, d) - n) <= d
    ensures 2 * (n - Mul(q, d)) == d || 2 * (Mul(q, d) - n) == d ==> q % 2 == 0
  {
    var (q0, r) := DivRem(n, d);
    if 2 * r > d || (2 * r == d && q0 % 2 == 1) then
      assert Mul(q0 + 1, d) == d + Mul(q0, d);
      q0 + 1
    else q0
  }

  lemma {:induction false} MulSplit(a: nat, k: nat, d: nat)
    ensures Mul(a + k, d) == Mul(a, d) + Mul(k, d)
    decreases k
  {
    if k > 0 {
      MulSplit(a, k - 1, d);
      assert Mul(a + k, d) == d + Mul(a + k - 1, d);
    }
  }

  lemma {:induction false} MulAtMostOnce(k: nat, d: nat)
    requires d > 0 && Mul(k, d) <= d
    ensures k <= 1
  {
    if k >= 2 {
      MulMonotone(1, k - 1, d);
    }
  }

  /** Two distinct nearest multiples of d are neighbours, and n lies exactly half-way between them. */
  lemma NearestNeighbours(n: nat, d: nat, lo: nat, hi: nat)
    requires d > 0 && lo < hi
    requires 2 * (n - Mul(lo, d)) <= d && 2 * (Mul(lo, d) - n) <= d
    requires 2 * (n - Mul(hi, d)) <= d && 2 * (Mul(hi, d) - n) <= d
    ensures hi == lo + 1
    ensures 2 * (n - Mul(lo, d)) == d && 2 * (Mul(hi, d) - n) == d
  {
    MulSplit(lo, hi - lo, d);
    MulMonotone(1, hi - lo, d);
    MulAtMostOnce(hi - lo, d);
  }

  /** Rounding half to even has exactly one answer: any nearest integer that breaks ties to even is the one computed. */
  lemma RoundHalfEvenUnique(n: nat, d: nat, q': nat)
    requires d > 0
    requires 2 * (n - Mul(q', d)) <= d && 2 * (Mul(q', d) - n) <= d
    requires 2 * (n - Mul(q', d)) == d || 2 * (Mul(q', d) - n) == d ==> q' % 2 == 0
    ensures q' == RoundHalfEven(n, d)
  {
    var q := RoundHalfEven(n, d);
    if q < q' {
      NearestNeighbours(n, d, q, q');
    } else if q' < q {
      NearestNeighbours(n, d, q', q);
    }
  }

  // ---------------------------------------------------------------------------
  // Fixed-point output: `.{places}f` and `,.{places}f`
  // ---------------------------------------------------------------------------

  /** Removes the group separators. */
  function Ungroup(s: string): (r: string)
    ensures |r| <= |s|
  {
    if s == [] then [] else Ungroup(s[..|s| - 1]) + (if s[|s| - 1] == ',' then [] else [s[|s| - 1]])
  }

  lemma {:induction false} UngroupAppend(a: string, b: string)
    ensures Ungroup(a + b) == Ungroup(a) + Ungroup(b)
    decreases |b|
  {
    if b == [] {
      assert a + b == a;
    } else {
      assert (a + b)[..|a + b| - 1] == a + b[..|b| - 1];
      UngroupAppend(a, b[..|b| - 1]);
    }
  }

  lemma {:induction false} UngroupDigits(d: string)
    requires AllDigits(d)
    ensures Ungroup(d) == d
    decreases |d|
  {
    if d != [] {
      UngroupDigits(d[..|d| - 1]);
      assert d[..|d| - 1] + [d[|d| - 1]] == d;
    }
  }

  /** Position i holds a comma exactly when the distance from i to the end is a multiple of four. */
  predicate CommaEveryFourth(r: string) {
    forall i :: 0 <= i < |r| ==> (r[i] == ',' <==> (|r| - i) % 4 == 0)
  }

  predicate DigitsAndCommas(r: string) {
    forall i :: 0 <= i < |r| ==> r[i] == ',' || IsDigit(r[i])
  }

  /** Digits in groups of three separated by commas, led by a group of one to three digits. */
  predicate WellGrouped(r: string) {
    |r| % 4 != 0 && CommaEveryFourth(r) && DigitsAndCommas(r)
  }

  lemma AppendGroupOfThree(head: string, tail: string)
    requires WellGrouped(head)
    requires |tail| == 3 && AllDigits(tail)
    ensures WellGrouped(head + "," + tail)
  {
    var r := head + "," + tail;
    forall i | 0 <= i < |r|
      ensures (r[i] == ',' <==> (|r| - i) % 4 == 0) && (r[i] == ',' || IsDigit(r[i]))
    {
      if i < |head| {
        assert r[i] == head[i];
        assert |r| - i == (|head| - i) + 4;
      } else if i > |head| {
        assert r[i] == tail[i - |head| - 1];
      }
    }
  }

  /**
    The `,` option of Python's format mini-language on the digits of an
    integer part: a comma before every group of three digits counted from the
    right. Removing the commas gives the digits back; GroupWellGrouped says where
    the commas are.
   */
  function Group(d: string): (r: string)
    requires d != [] && AllDigits(d)
    ensures r != [] && IsDigit(r[0])
    ensures Ungroup(r) == d
    ensures r[0] == d[0] && (|d| == 1 ==> r == d)
  {
    if |d| <= 3 then
      UngroupDigits(d);
      d
    else
      var head := Group(d[..|d| - 3]);
      UngroupCommaStep(head, d);
      head + "," + d[|d| - 3..]
  }

  /** One step of Group: a comma and the last three digits put back after the grouped head. */
  lemma UngroupCommaStep(head: string, d: string)
    requires |d| > 3 && AllDigits(d)
    requires Ungroup(head) == d[..|d| - 3]
    ensures Ungroup(head + "," + d[|d| - 3..]) == d
  {
    var tail := d[|d| - 3..];
    UngroupAppend(head + ",", tail);
    UngroupAppend(head, ",");
    UngroupDigits(tail);
    assert Ungroup(",") == [];
    assert d[..|d| - 3] + tail == d;
  }

  /**
    Grouped digits have a comma exactly where the distance to the end is a
    multiple of four, and a digit everywhere else: groups of three, the
    leading group of one to three digits.
   */
  lemma {:induction false} GroupWellGrouped(d: string)
    requires d != [] && AllDigits(d)
    ensures WellGrouped(Group(d))
    decreases |d|
  {
    if |d| > 3 {
      GroupWellGrouped(d[..|d| - 3]);
      AppendGroupOfThree(Group(d[..|d| - 3]), d[|d| - 3..]);
    }
  }

  /**
    The unsigned part of a fixed-point numeral for a value scaled by
    10^places: its digits, padded to at least one integer digit, with a point
    before the last `places` of them; the integer digits are grouped when
    asked.
   */
  function Magnitude(scaled: nat, places: nat, grouped: bool): (r: string)
    requires places >= 1
    ensures r != [] && IsDigit(r[0])
    ensures MinimalIntegerPart(r)
  {
    var p := PadDecimal(scaled, places + 1);
    var w := p[..|p| - places];
    PaddedIntegerPart(scaled, places);
    (if grouped then Group(w) else w) + "." + p[|p| - places..]
  }

  /** The integer part of a fixed-point text is "0" or starts with a non-zero digit: no padding zeros. */
  predicate MinimalIntegerPart(m: string) {
    |m| >= 2 && (m[0] != '0' || m[1] == '.')
  }

  /** The integer digits of a padded value are a single digit, or lead with a non-zero one. */
  lemma PaddedIntegerPart(scaled: nat, places: nat)
    ensures var p := PadDecimal(scaled, places + 1);
            |p| > places && (|p| == places + 1 || p[0] != '0')
  {
    var d := Decimal(scaled);
    if |d| >= places + 1 {
      assert Zeros(0) + d == d;
    }
  }

  /**
    Python's fixed-point format of a Decimal with `places` decimals (`.1f`,
    `,.2f`): an optional minus sign, then the magnitude. The value is given as
    its magnitude scaled by 10^places, already rounded, with its sign apart.
   */
  function Fixed(negative: bool, scaled: nat, places: nat, grouped: bool): string
    requires places >= 1
  {
    (if negative then "-" else "") + Magnitude(scaled, places, grouped)
  }

  /** Reads a magnitude back, scaled by 10^places; None unless the text has exactly the shape Magnitude produces. */
  function ParseMagnitude(body: string, places: nat, grouped: bool): Option<nat> {
    if |body| < places + 2 then None
    else
      var point := |body| - places - 1;
      var intPart := body[..point];
      var frac := body[point + 1..];
      var digits := if grouped then Ungroup(intPart) else intPart;
      if body[point] != '.' || !AllDigits(frac) || digits == [] || !AllDigits(digits) then None
      else if grouped && !WellGrouped(intPart) then None
      else Some(ValueOf(digits + frac))
  }

  /** Reads a fixed-point numeral back: its sign and its magnitude scaled by 10^places. */
  function ParseFixed(s: string, places: nat, grouped: bool): Option<(bool, nat)> {
    var negative := s != [] && s[0] == '-';
    match ParseMagnitude(if negative then s[1..] else s, places, grouped)
    case None => None
    case Some(m) => Some((negative, m))
  }

  lemma ParseMagnitudeParts(intPart: string, frac: string, places: nat, grouped: bool, digits: string)
    requires |frac| == places && AllDigits(frac)
    requires digits == (if grouped then Ungroup(intPart) else intPart)
    requires digits != [] && AllDigits(digits)
    requires grouped ==> WellGrouped(intPart)
    ensures ParseMagnitude(intPart + "." + frac, places, grouped) == Some(ValueOf(digits + frac))
  {
    var body := intPart + "." + frac;
    var point := |body| - places - 1;
    assert body[..point] == intPart;
    assert body[point] == '.';
    assert body[point + 1..] == frac;
  }

  /** A text that reads as a magnitude has a point `places` digits from its end, and a well-grouped integer part. */
  lemma ParseMagnitudeShape(body: string, places: nat, grouped: bool)
    requires ParseMagnitude(body, places, grouped).Some?
    ensures |body| >= places + 2 && body[|body| - places - 1] == '.'
    ensures AllDigits(body[|body| - places..])
    ensures grouped ==> WellGrouped(body[..|body| - places - 1])
  {
  }

  /** A text that reads as a fixed-point numeral is an optional '-' and a text that reads as a magnitude. */
  lemma ParseFixedShape(s: string, places: nat, grouped: bool)
    requires ParseFixed(s, places, grouped).Some?
    ensures s != []
    ensures ParseMagnitude(if s[0] == '-' then s[1..] else s, places, grouped).Some?
  {
  }

  /** Cutting a numeral into integer digits and `places` fraction digits. */
  lemma CutDigits(p: string, places: nat)
    requires AllDigits(p) && |p| > places
    ensures var w := p[..|p| - places]; var f := p[|p| - places..];
            w != [] && AllDigits(w) && |f| == places && AllDigits(f) && w + f == p
  {
  }

  lemma MagnitudeRoundTrip(scaled: nat, places: nat, grouped: bool)
    requires places >= 1
    ensures ParseMagnitude(Magnitude(scaled, places, grouped), places, grouped) == Some(scaled)
  {
    var p := PadDecimal(scaled, places + 1);
    var w := p[..|p| - places];
    CutDigits(p, places);
    if grouped {
      GroupWellGrouped(w);
    }
    ParseMagnitudeParts(if grouped then Group(w) else w, p[|p| - places..], places, grouped, w);
  }

  /** Formatting loses nothing: reading the text back gives the sign and the scaled magnitude. */
  lemma FixedRoundTrip(negative: bool, scaled: nat, places: nat, grouped: bool)
    requires places >= 1
    ensures ParseFixed(Fixed(negative, scaled, places, grouped), places, grouped) == Some((negative, scaled))
  {
    var m := Magnitude(scaled, places, grouped);
    var s := Fixed(negative, scaled, places, grouped);
    assert (if negative then s[1..] else s) == m;
    MagnitudeRoundTrip(scaled, places, grouped);
  }
}

=== FILE: records.dfy ===
/**
  The business records of the potato company: seed batches, plantings, sales,
  inventory and expenses, with the quantities derived from them.

  Every Decimal field has two decimal places and is held as an integer count
  of hundredths (1.25 kg is 125). A product of two such fields is exact in
  ten-thousandths. Dates are day numbers; no operation here reads them.
 */
module Records {
  import opened Wrappers
  import opened Numerals

  // ---------------------------------------------------------------------------
  // Choice lists
  // ---------------------------------------------------------------------------

  /** A Django choice list: (stored value, human-readable label) pairs. */
  type Choices = seq<(string, string)>

  predicate IsKey(c: Choices, value: string) {
    exists i :: 0 <= i < |c| && c[i].0 == value
  }

  /**
    `get_<field>_display()`: the label of a stored value, or the value itself
    when it is not one of the choices. The lookup goes through a dict built
    from the list, so a repeated key takes its last label.
   */
  function Label(c: Choices, value: string): (r: string)
    ensures !IsKey(c, value) ==> r == value
    ensures IsKey(c, value) ==> exists i :: 0 <= i < |c| && c[i] == (value, r)
  {
    if c == [] then value
    else if c[|c| - 1].0 == value then c[|c| - 1].1
    else
      var r := Label(c[..|c| - 1], value);
      assert forall i :: 0 <= i < |c| - 1 ==> c[..|c| - 1][i] == c[i];
      r
  }

  /** In a list without repeated keys, a key's label is the one listed beside it. */
  lemma {:induction false} LabelOfKey(c: Choices, i: nat)
    requires i < |c|
    requires forall j, k :: 0 <= j < k < |c| ==> c[j].0 != c[k].0
    ensures Label(c, c[i].0) == c[i].1
    decreases |c|
  {
    if i < |c| - 1 {
      LabelOfKey(c[..|c| - 1], i);
    }
  }

  const VarietyChoices: Choices := [
    ("russet", "Russet Burbank"), ("red", "Red Pontiac"), ("yukon", "Yukon Gold"),
    ("fingerling", "Fingerling"), ("sweet", "Sweet Potato")]

  const PlantingStatusChoices: Choices := [
    ("planted", "Planted"), ("growing", "Growing"), ("ready", "Ready for Harvest"),
    ("harvested", "Harvested"), ("failed", "Failed")]

  const PaymentStatusChoices: Choices := [
    ("pending", "Pending"), ("paid", "Paid"), ("overdue", "Overdue")]

  const QualityChoices: Choices := [
    ("premium", "Premium"), ("standard", "Standard"), ("seconds", "Seconds")]

  const ExpenseCategoryChoices: Choices := [
    ("seeds", "Seeds"), ("transport", "Transportation"), ("labor", "Labor"),
    ("equipment", "Equipment"), ("maintenance", "Maintenance"),
    ("utilities", "Utilities"), ("marketing", "Marketing"), ("other", "Other")]

  // ---------------------------------------------------------------------------
  // Field validation
  // ---------------------------------------------------------------------------

  /** A DecimalField with `maxDigits` digits, two of them after the point, holds fewer than 10^maxDigits hundredths. */
  predicate FitsDecimal(hundredths: int, maxDigits: nat) {
    -(Pow10(maxDigits) as int) < hundredths < Pow10(maxDigits)
  }

  /** A CharField with `max_length`, and `choices` when there are any. */
  predicate FitsChar(value: string, maxLength: nat, choices: Choices) {
    |value| <= maxLength && (choices == [] || IsKey(choices, value))
  }

  /** `MinValueValidator(Decimal('0.01'))` on a field with two decimal places. */
  predicate AtLeastOneCent(hundredths: int) {
    hundredths >= 1
  }

  // ---------------------------------------------------------------------------
  // The records
  // ---------------------------------------------------------------------------

  datatype SeedBatch = SeedBatch(
    variety: string,
    quantityKg: int,
    supplier: string,
    importDate: int,
    costPerKg: int,
    notes: string)

  predicate ValidSeedBatch(b: SeedBatch) {
    && FitsChar(b.variety, 100, VarietyChoices)
    && FitsDecimal(b.quantityKg, 10) && AtLeastOneCent(b.quantityKg)
    && FitsChar(b.supplier, 100, [])
    && FitsDecimal(b.costPerKg, 8) && AtLeastOneCent(b.costPerKg)
  }

  datatype PlantingRecord = PlantingRecord(
    fieldName: string,
    seedBatch: SeedBatch,
    datePlanted: int,
    expectedYieldKg: int,
    actualYieldKg: Option<int>,
    harvestDate: Option<int>,
    status: string,
    notes: string)

  predicate ValidPlantingRecord(p: PlantingRecord) {
    && FitsChar(p.fieldName, 100, [])
    && FitsDecimal(p.expectedYieldKg, 10) && AtLeastOneCent(p.expectedYieldKg)
    && (p.actualYieldKg.Some? ==> FitsDecimal(p.actualYieldKg.value, 10) && AtLeastOneCent(p.actualYieldKg.value))
    && FitsChar(p.status, 20, PlantingStatusChoices)
  }

  /** A planting as created without a status: it starts as 'planted'. */
  function NewPlanting(fieldName: string, seedBatch: SeedBatch, datePlanted: int, expectedYieldKg: int): (p: PlantingRecord)
    ensures p.status == "planted" && Label(PlantingStatusChoices, p.status) == "Planted"
    ensures p.actualYieldKg.None? && p.harvestDate.None? && p.notes == ""
  {
    LabelOfKey(PlantingStatusChoices, 0);
    PlantingRecord(fieldName, seedBatch, datePlanted, expectedYieldKg, None, None, "planted", "")
  }

  datatype Sale = Sale(
    customerName: string,
    customerEmail: string,
    customerPhone: string,
    date: int,
    variety: string,
    quantityKg: int,
    pricePerKg: int,
    paymentStatus: string,
    invoiceNumber: string,
    notes: string)

  predicate ValidSale(s: Sale) {
    && FitsChar(s.customerName, 100, [])
    && FitsChar(s.customerPhone, 20, [])
    && FitsChar(s.variety, 100, [])
    && FitsDecimal(s.quantityKg, 10) && AtLeastOneCent(s.quantityKg)
    && FitsDecimal(s.pricePerKg, 10) && AtLeastOneCent(s.pricePerKg)
    && FitsChar(s.paymentStatus, 20, PaymentStatusChoices)
    && FitsChar(s.invoiceNumber, 50, [])
  }

  datatype Inventory = Inventory(
    variety: string,
    quantityKg: int,
    qualityGrade: string,
    storageLocation: string,
    expiryDate: Option<int>)

  predicate ValidInventory(i: Inventory) {
    && FitsChar(i.variety, 100, [])
    && FitsDecimal(i.quantityKg, 10) && i.quantityKg >= 0
    && FitsChar(i.qualityGrade, 20, QualityChoices)
    && FitsChar(i.storageLocation, 100, [])
  }

  datatype Expense = Expense(
    description: string,
    amount: int,
    date: int,
    category: string,
    receiptNumber: string,
    supplier: string,
    isRecurring: bool,
    notes: string)

  predicate ValidExpense(e: Expense) {
    && FitsChar(e.description, 255, [])
    && FitsDecimal(e.amount, 10) && AtLeastOneCent(e.amount)
    && FitsChar(e.category, 100, ExpenseCategoryChoices)
    && FitsChar(e.receiptNumber, 100, [])
    && FitsChar(e.supplier, 100, [])
  }

  // ---------------------------------------------------------------------------
  // Derived quantities
  // ---------------------------------------------------------------------------

  /** `SeedBatch.total_cost`: quantity times unit cost, exact, in ten-thousandths. */
  function TotalCost(b: SeedBatch): (r: int)
    ensures r == 0 <==> b.quantityKg == 0 || b.costPerKg == 0
    ensures r < 0 <==> (b.quantityKg < 0 && b.costPerKg > 0) || (b.quantityKg > 0 && b.costPerKg < 0)
  {
    b.quantityKg * b.costPerKg
  }

  /** `Sale.total_price`: quantity times unit price, exact, in ten-thousandths. */
  function TotalPrice(s: Sale): (r: int)
    ensures r == 0 <==> s.quantityKg == 0 || s.pricePerKg == 0
    ensures r < 0 <==> (s.quantityKg < 0 && s.pricePerKg > 0) || (s.quantityKg > 0 && s.pricePerKg < 0)
  {
    s.quantityKg * s.pricePerKg
  }

  /** A product of two amounts of at least 0.01 is at least 0.0001 and below 10^(m+n) ten-thousandths. */
  lemma ProductBounds(x: int, y: int, m: nat, n: nat)
    requires AtLeastOneCent(x) && FitsDecimal(x, m)
    requires AtLeastOneCent(y) && FitsDecimal(y, n)
    ensures 1 <= x * y < Pow10(m + n)
  {
    Pow10Sum(m, n);
    MulBelow(x, y, Pow10(m), Pow10(n));
  }

  lemma MulBelow(x: nat, y: nat, p: nat, q: nat)
    requires 1 <= x < p && 1 <= y < q
    ensures 1 <= x * y < p * q
  {
    MulMonotoneRight(x, y, q);
    MulMonotone(x + 1, p, q);
    MulSplit(x, 1, q);
    assert Mul(1, q) == q;
    MulIsProduct(x, y);
    MulIsProduct(p, q);
  }

  lemma {:induction false} MulMonotoneRight(a: nat, b: nat, c: nat)
    requires b <= c
    ensures Mul(a, b) <= Mul(a, c)
  {
    if a > 0 {
      MulMonotoneRight(a - 1, b, c);
    }
  }

  lemma {:induction false} Pow10Sum(m: nat, n: nat)
    ensures Pow10(m + n) == Pow10(m) * Pow10(n)
  {
    if m > 0 {
      Pow10Sum(m - 1, n);
    }
  }

  /** A valid seed batch costs something, and its cost fits 18 digits of ten-thousandths. */
  lemma TotalCostPositive(b: SeedBatch)
    requires ValidSeedBatch(b)
    ensures 1 <= TotalCost(b) < Pow10(18)
  {
    ProductBounds(b.quantityKg, b.costPerKg, 10, 8);
  }

  /** A valid sale has a positive total, below 10^20 ten-thousandths. */
  lemma TotalPricePositive(s: Sale)
    requires ValidSale(s)
    ensures 1 <= TotalPrice(s) < Pow10(20)
  {
    ProductBounds(s.quantityKg, s.pricePerKg, 10, 10);
  }

  /** An exact non-negative-denominator fraction num/den. */
  datatype Ratio = Ratio(num: int, den: int)

  /** The fraction is at least k. */
  predicate AtLeast(q: Ratio, k: int) {
    q.num >= k * q.den
  }

  /**
    `PlantingRecord.yield_efficiency`: actual yield as a percentage of the
    expected yield, or None when either is missing or zero (a zero Decimal is
    false in Python).
   */
  function YieldEfficiency(p: PlantingRecord): (r: Option<Ratio>)
    ensures r.None? <==> p.actualYieldKg.None? || p.actualYieldKg.value == 0 || p.expectedYieldKg == 0
    ensures r.Some? ==> r.value.den > 0 && r.value.num * p.expectedYieldKg == 100 * p.actualYieldKg.value * r.value.den
  {
    match p.actualYieldKg
    case None => None
    case Some(actual) =>
      if actual == 0 || p.expectedYieldKg == 0 then None
      else if p.expectedYieldKg > 0 then Some(Ratio(100 * actual, p.expectedYieldKg))
      else Some(Ratio(-100 * actual, -p.expectedYieldKg))
  }

  /** With a positive expected yield, the efficiency reaches k percent exactly when actual * 100 >= k * expected. */
  lemma EfficiencyAtLeast(p: PlantingRecord, k: int)
    requires p.expectedYieldKg > 0
    requires p.actualYieldKg.Some? && p.actualYieldKg.value != 0
    ensures YieldEfficiency(p).Some?
    ensures AtLeast(YieldEfficiency(p).value, k) <==> 100 * p.actualYieldKg.value >= k * p.expectedYieldKg
  {
  }

  /** The harvest meets expectations (efficiency at least 100) exactly when the actual yield reaches the expected one. */
  lemma FullEfficiency(p: PlantingRecord)
    requires p.expectedYieldKg > 0
    requires p.actualYieldKg.Some? && p.actualYieldKg.value != 0
    ensures AtLeast(YieldEfficiency(p).value, 100) <==> p.actualYieldKg.value >= p.expectedYieldKg
  {
    EfficiencyAtLeast(p, 100);
  }

  /** `Inventory.is_low_stock`: strictly fewer than 50 kg. */
  function IsLowStock(i: Inventory): (low: bool)
    ensures low <==> !AtLeast(Ratio(i.quantityKg, 100), 50)
  {
    i.quantityKg < 5000
  }

  /** Low stock is downward closed: less of an item that is low is low too. */
  lemma LowStockThreshold(i: Inventory, j: Inventory)
    requires IsLowStock(j) && i.quantityKg <= j.quantityKg
    ensures IsLowStock(i)
  {
  }

  /** The comparison is strict: exactly 50 kg is not low, one hundredth less is. */
  lemma LowStockBoundary(i: Inventory)
    ensures i.quantityKg == 5000 ==> !IsLowStock(i)
    ensures i.quantityKg == 4999 ==> IsLowStock(i)
  {
  }
}

=== FILE: records_admin.dfy ===
/**
  The computed columns of the records admin: money totals, the coloured
  yield-efficiency badge, the payment-status badge and the stock status.
  A badge is modelled by its colour, weight and text; the HTML around them
  is not.
 */
module RecordsAdmin {
  import opened Wrappers
  import opened Text
  import opened Numerals
  import opened Records

  datatype Color = Green | Orange | Red | Black

  /** An admin cell: the plain "-" or a coloured span, bold or not, around some text. */
  datatype Cell = Dash | Span(color: Color, bold: bool, text: string)

  // ---------------------------------------------------------------------------
  // Money: `f"${value:,.2f}"`
  // ---------------------------------------------------------------------------

  /**
    A Decimal amount in ten-thousandths as `$` + `{:,.2f}`: the sign, then
    the integer part with thousands separators, then two decimals rounded
    half to even.
   */
  function Money(negative: bool, tenThousandths: nat): (r: string)
    ensures r != [] && r[0] == '$'
    ensures ParseMoney(r).Some? && ParseMoney(r).value == (negative, RoundHalfEven(tenThousandths, 100))
    ensures MinimalIntegerPart(if negative then r[2..] else r[1..])
  {
    var body := Fixed(negative, RoundHalfEven(tenThousandths, 100), 2, true);
    FixedRoundTrip(negative, RoundHalfEven(tenThousandths, 100), 2, true);
    assert ("$" + body)[1..] == body;
    assert (if negative then body[1..] else body) == Magnitude(RoundHalfEven(tenThousandths, 100), 2, true);
    "$" + body
  }

  /** A product is negative when exactly one factor is: Decimal keeps the sign even of a zero product. */
  function ProductMoney(x: int, y: int): (r: string)
    ensures r != [] && r[0] == '$'
    ensures ParseMoney(r).Some? && ParseMoney(r).value.0 == ((x < 0) != (y < 0))
  {
    var p := x * y;
    Money((x < 0) != (y < 0), if p < 0 then -p else p)
  }

  /** `SeedBatchAdmin.total_cost_display`. */
  function TotalCostDisplay(b: SeedBatch): (r: string)
    ensures r != [] && r[0] == '$' && ParseMoney(r).Some?
  {
    ProductMoney(b.quantityKg, b.costPerKg)
  }

  /** `SaleAdmin.total_price_display`. */
  function TotalPriceDisplay(s: Sale): (r: string)
    ensures r != [] && r[0] == '$' && ParseMoney(r).Some?
  {
    ProductMoney(s.quantityKg, s.pricePerKg)
  }

  /** Reads a money text back: its sign and its amount in cents. */
  function ParseMoney(s: string): Option<(bool, nat)> {
    if s != [] && s[0] == '$' then ParseFixed(s[1..], 2, true) else None
  }

  /**
    The money text gives back the sign and the amount rounded to the nearest
    cent, ties to even: at most half a cent from the exact amount.
   */
  lemma MoneyRoundTrip(negative: bool, tenThousandths: nat)
    ensures ParseMoney(Money(negative, tenThousandths)).Some?
    ensures ParseMoney(Money(negative, tenThousandths)).value == (negative, RoundHalfEven(tenThousandths, 100))
    ensures -50 <= tenThousandths - 100 * RoundHalfEven(tenThousandths, 100) <= 50
  {
    var cents := RoundHalfEven(tenThousandths, 100);
    var s := Money(negative, tenThousandths);
    assert s[1..] == Fixed(negative, cents, 2, true);
    FixedRoundTrip(negative, cents, 2, true);
    MulIsProduct(cents, 100);
  }

  /** A valid batch shows its total cost, positive and rounded to the cent. */
  lemma TotalCostDisplayReads(b: SeedBatch)
    requires ValidSeedBatch(b)
    ensures TotalCost(b) > 0 && ParseMoney(TotalCostDisplay(b)) == Some((false, RoundHalfEven(TotalCost(b), 100)))
  {
    TotalCostPositive(b);
    MoneyRoundTrip(false, TotalCost(b));
  }

  /** A valid sale shows its total price, positive and rounded to the cent. */
  lemma TotalPriceDisplayReads(s: Sale)
    requires ValidSale(s)
    ensures TotalPrice(s) > 0 && ParseMoney(TotalPriceDisplay(s)) == Some((false, RoundHalfEven(TotalPrice(s), 100)))
  {
    TotalPricePositive(s);
    MoneyRoundTrip(false, TotalPrice(s));
  }

  /**
    Any text that reads as money has the shape of the display: '$', an
    optional '-', integer digits grouped by commas in threes, '.', and
    exactly two digits.
   */
  lemma MoneyShape(s: string)
    requires ParseMoney(s).Some?
    ensures |s| >= 5 && s[0] == '$'
    ensures var body := if s[1] == '-' then s[2..] else s[1..];
            |body| >= 4 && WellGrouped(body[..|body| - 3]) && body[|body| - 3] == '.'
            && IsDigit(body[|body| - 2]) && IsDigit(body[|body| - 1])
  {
    var rest := s[1..];
    ParseFixedShape(rest, 2, true);
    var body := if rest[0] == '-' then rest[1..] else rest;
    MoneyBodyShape(body);
    assert body == if s[1] == '-' then s[2..] else s[1..];
  }

  /** The unsigned part of money text: grouped digits, '.', two digits. */
  lemma MoneyBodyShape(body: string)
    requires ParseMagnitude(body, 2, true).Some?
    ensures |body| >= 4 && WellGrouped(body[..|body| - 3]) && body[|body| - 3] == '.'
    ensures IsDigit(body[|body| - 2]) && IsDigit(body[|body| - 1])
  {
    ParseMagnitudeShape(body, 2, true);
    var frac := body[|body| - 2..];
    assert frac[0] == body[|body| - 2] && frac[1] == body[|body| - 1];
  }

  // ---------------------------------------------------------------------------
  // Yield efficiency badge
  // ---------------------------------------------------------------------------

  /** Green from 100 percent up, orange from 80, red below. */
  function EfficiencyColor(q: Ratio): (c: Color)
    requires q.den > 0
    ensures c == Green <==> AtLeast(q, 100)
    ensures c == Orange <==> AtLeast(q, 80) && !AtLeast(q, 100)
    ensures c == Red <==> !AtLeast(q, 80)
  {
    if AtLeast(q, 100) then Green else if AtLeast(q, 80) then Orange else Red
  }

  /** `{:.1f}%` of a fraction: the tenths rounded half to even, with the sign of the fraction. */
  function PercentText(q: Ratio): (r: string)
    requires q.den > 0
    ensures r != [] && r[|r| - 1] == '%'
    ensures |r| >= 3 && MinimalIntegerPart(if q.num < 0 then r[1..|r| - 1] else r[..|r| - 1])
    ensures ParseFixed(r[..|r| - 1], 1, false).Some?
    ensures ParseFixed(r[..|r| - 1], 1, false).value == (q.num < 0, RoundHalfEven(10 * (if q.num < 0 then -q.num else q.num), q.den))
  {
    var tenths := RoundHalfEven(10 * (if q.num < 0 then -q.num else q.num), q.den);
    var body := Fixed(q.num < 0, tenths, 1, false);
    FixedRoundTrip(q.num < 0, tenths, 1, false);
    assert (body + "%")[..|body|] == body;
    assert (if q.num < 0 then body[1..] else body) == Magnitude(tenths, 1, false);
    body + "%"
  }

  /** What the admin can raise while building a cell. */
  datatype AdminError = ValueError

  /**
    `PlantingRecordAdmin.efficiency_display` as written. `format_html` escapes
    every argument to a string before formatting, so the `{:.1f}` spec meets
    a string and raises ValueError whenever there is an efficiency to show;
    only the "-" of a missing efficiency comes through.
   */
  function EfficiencyDisplay(p: PlantingRecord): (r: Result<Cell, AdminError>)
    ensures r.Err? <==> YieldEfficiency(p).Some?
    ensures r.Ok? ==> r.value == Dash
  {
    match YieldEfficiency(p)
    case None => Ok(Dash)
    case Some(_) => Err(ValueError)
  }

  /**
    The evidently intended column: "-" without an efficiency, otherwise the
    percentage to one decimal in the colour of its band.
   */
  function IntendedEfficiencyDisplay(p: PlantingRecord): (r: Cell)
    ensures r == Dash <==> YieldEfficiency(p).None?
    ensures r.Span? ==> r.color == EfficiencyColor(YieldEfficiency(p).value) && !r.bold
    ensures r.Span? ==> r.text == PercentText(YieldEfficiency(p).value)
  {
    match YieldEfficiency(p)
    case None => Dash
    case Some(q) => Span(EfficiencyColor(q), false, PercentText(q))
  }

  /** Every planting with an efficiency breaks the column as written, where the intended one shows a badge. */
  lemma EfficiencyDisplayRaises(p: PlantingRecord)
    requires p.expectedYieldKg > 0 && p.actualYieldKg.Some? && p.actualYieldKg.value != 0
    ensures EfficiencyDisplay(p) == Err(ValueError)
    ensures IntendedEfficiencyDisplay(p).Span?
  {
  }

  /** For instance 95 kg harvested against 100 kg expected: an error, not an orange "95.0%". */
  lemma NinetyFivePercentRaises(p: PlantingRecord)
    requires p.expectedYieldKg == 10000 && p.actualYieldKg == Some(9500)
    ensures EfficiencyDisplay(p).Err?
    ensures IntendedEfficiencyDisplay(p).Span? && IntendedEfficiencyDisplay(p).color == Orange
  {
    EfficiencyBands(p);
  }

  /**
    With a positive expected yield and some harvest, the intended badge colour
    compares the yields directly: green when actual >= expected, orange when
    5 * actual >= 4 * expected, red otherwise.
   */
  lemma EfficiencyBands(p: PlantingRecord)
    requires p.expectedYieldKg > 0 && p.actualYieldKg.Some? && p.actualYieldKg.value != 0
    ensures IntendedEfficiencyDisplay(p).Span?
    ensures IntendedEfficiencyDisplay(p).color == Green <==> p.actualYieldKg.value >= p.expectedYieldKg
    ensures IntendedEfficiencyDisplay(p).color == Orange <==>
              5 * p.actualYieldKg.value >= 4 * p.expectedYieldKg && p.actualYieldKg.value < p.expectedYieldKg
    ensures IntendedEfficiencyDisplay(p).color == Red <==> 5 * p.actualYieldKg.value < 4 * p.expectedYieldKg
  {
    EfficiencyAtLeast(p, 100);
    EfficiencyAtLeast(p, 80);
  }

  /** The percentage text reads back as the sign and the tenths of a percent, within half a tenth of the exact value. */
  lemma PercentTextRoundTrip(q: Ratio)
    requires q.den > 0
    ensures var r := PercentText(q);
            var m := if q.num < 0 then -q.num else q.num;
            var t := RoundHalfEven(10 * m, q.den);
            && ParseFixed(r[..|r| - 1], 1, false).Some?
            && ParseFixed(r[..|r| - 1], 1, false).value == (q.num < 0, t)
            && 2 * (10 * m - Mul(t, q.den)) <= q.den && 2 * (Mul(t, q.den) - 10 * m) <= q.den
  {
  }

  // ---------------------------------------------------------------------------
  // Payment status and stock badges
  // ---------------------------------------------------------------------------

  /** The colour map of `payment_status_display`, black for any other status. */
  function PaymentColor(status: string): (c: Color)
    ensures c == Black <==> !IsKey(PaymentStatusChoices, status)
  {
    if status == "paid" then
      assert PaymentStatusChoices[1].0 == status;
      Green
    else if status == "pending" then
      assert PaymentStatusChoices[0].0 == status;
      Orange
    else if status == "overdue" then
      assert PaymentStatusChoices[2].0 == status;
      Red
    else Black
  }

  /** `SaleAdmin.payment_status_display`: a bold span in the status colour around the status label. */
  function PaymentStatusDisplay(s: Sale): (r: Cell)
    ensures r.Span? && r.bold
    ensures r.text == Label(PaymentStatusChoices, s.paymentStatus)
  {
    Span(PaymentColor(s.paymentStatus), true, Label(PaymentStatusChoices, s.paymentStatus))
  }

  /** The three known statuses show their label in their colour; anything else shows itself in black. */
  lemma PaymentBadges(s: Sale)
    ensures s.paymentStatus == "paid" ==> PaymentStatusDisplay(s) == Span(Green, true, "Paid")
    ensures s.paymentStatus == "pending" ==> PaymentStatusDisplay(s) == Span(Orange, true, "Pending")
    ensures s.paymentStatus == "overdue" ==> PaymentStatusDisplay(s) == Span(Red, true, "Overdue")
    ensures !IsKey(PaymentStatusChoices, s.paymentStatus) ==> PaymentStatusDisplay(s) == Span(Black, true, s.paymentStatus)
  {
    LabelOfKey(PaymentStatusChoices, 0);
    LabelOfKey(PaymentStatusChoices, 1);
    LabelOfKey(PaymentStatusChoices, 2);
  }

  /** `InventoryAdmin.stock_status`. */
  function StockStatus(i: Inventory): (r: Cell)
    ensures r.Span?
    ensures r.text == "Low Stock" <==> IsLowStock(i)
    ensures r.text == "Low Stock" ==> r.color == Red && r.bold
    ensures r.text != "Low Stock" ==> r == Span(Green, false, "Good")
  {
    if IsLowStock(i) then Span(Red, true, "Low Stock") else Span(Green, false, "Good")
  }
}

=== FILE: text.dfy ===
/**
  The parts of Python's `str` that the site relies on, restricted to ASCII:
  character classes, `strip()`, `split()` with no argument, `title()` and
  `sep.join(items)`, each with a reference description it is proved against.
 */
module Text {

  /** `str.isspace()` on ASCII: the space, \t \n \v \f \r (9..13) and the separators \x1c..\x1f (28..31). */
  predicate IsSpace(c: char) {
    c == ' ' || 9 <= c as int <= 13 || 28 <= c as int <= 31
  }

  predicate IsUpper(c: char) { 'A' <= c <= 'Z' }

  predicate IsLower(c: char) { 'a' <= c <= 'z' }

  /** `str.isalpha()` on ASCII. */
  predicate IsAlpha(c: char) { IsUpper(c) || IsLower(c) }

  /** The ASCII digits, which is what `\d` and `int()` accept in this model. */
  predicate IsDigit(c: char) { '0' <= c <= '9' }

  function ToUpper(c: char): (r: char)
    ensures IsAlpha(r) <==> IsAlpha(c)
    ensures IsSpace(r) <==> IsSpace(c)
    ensures !IsLower(r)
  {
    if IsLower(c) then (c as int - 32) as char else c
  }

  function ToLower(c: char): (r: char)
    ensures IsAlpha(r) <==> IsAlpha(c)
    ensures IsSpace(r) <==> IsSpace(c)
    ensures !IsUpper(r)
  {
    if IsUpper(c) then (c as int + 32) as char else c
  }

  /** `any(ch.isalpha() for ch in s)`. */
  predicate HasLetter(s: string) {
    exists i :: 0 <= i < |s| && IsAlpha(s[i])
  }

  /** Neither end of s is whitespace: what `strip()` leaves behind. */
  predicate Trimmed(s: string) {
    s == [] || (!IsSpace(s[0]) && !IsSpace(s[|s| - 1]))
  }

  predicate AllSpace(s: string) {
    forall i :: 0 <= i < |s| ==> IsSpace(s[i])
  }

  // ---------------------------------------------------------------------------
  // strip()
  // ---------------------------------------------------------------------------

  /** `s.lstrip()`: a suffix of s that does not start with whitespace. */
  function StripLeft(s: string): (r: string)
    ensures |r| <= |s| && r == s[|s| - |r|..]
    ensures r == [] || !IsSpace(r[0])
  {
    if s != [] && IsSpace(s[0]) then StripLeft(s[1..]) else s
  }

  /** `s.rstrip()`: a prefix of s that does not end with whitespace. */
  function StripRight(s: string): (r: string)
    ensures |r| <= |s| && r == s[..|r|]
    ensures r == [] || !IsSpace(r[|r| - 1])
  {
    if s != [] && IsSpace(s[|s| - 1]) then StripRight(s[..|s| - 1]) else s
  }

  /** `s.strip()`. */
  function Strip(s: string): (r: string)
    ensures Trimmed(r)
  {
    var t := StripLeft(s);
    var r := StripRight(t);
    assert r != [] ==> r[0] == t[0];
    r
  }

  lemma {:induction false} StripLeftDropsSpaces(s: string)
    ensures AllSpace(s[..|s| - |StripLeft(s)|])
  {
    if s != [] && IsSpace(s[0]) {
      StripLeftDropsSpaces(s[1..]);
      assert s[..|s| - |StripLeft(s)|] == [s[0]] + s[1..][..|s| - 1 - |StripLeft(s[1..])|];
    }
  }

  lemma {:induction false} StripRightKeepsFirst(t: string)
    requires t != [] && !IsSpace(t[0])
    ensures StripRight(t) != []
  {
    if IsSpace(t[|t| - 1]) {
      StripRightKeepsFirst(t[..|t| - 1]);
    }
  }

  /** Every character `strip()` keeps comes from s. */
  lemma StripChars(s: string)
    ensures forall c :: c in Strip(s) ==> c in s
  {
    var t := StripLeft(s);
    var r := Strip(s);
    assert forall c :: c in t ==> c in s;
    assert forall c :: c in r ==> c in t;
  }

  /** `strip()` returns "" exactly for text made only of whitespace. */
  lemma StripEmpty(s: string)
    ensures Strip(s) == [] <==> AllSpace(s)
  {
    StripLeftDropsSpaces(s);
    var t := StripLeft(s);
    var k := |s| - |t|;
    if Strip(s) == [] {
      if t != [] {
        StripRightKeepsFirst(t);
      }
      assert s[..k] == s;
    } else {
      StripChars(s);
      assert Strip(s)[0] in s;
    }
  }

  /** A string without outer whitespace is its own `strip()`; in particular `strip()` is idempotent. */
  lemma StripTrimmed(s: string)
    requires Trimmed(s)
    ensures Strip(s) == s
  {
    assert StripLeft(s) == s;
    assert StripRight(s) == s;
  }

  // ---------------------------------------------------------------------------
  // split()
  // ---------------------------------------------------------------------------

  /** Length of the run of non-whitespace characters at the front of s. */
  function WordLength(s: string): (k: nat)
    ensures k <= |s|
    ensures forall i :: 0 <= i < k ==> !IsSpace(s[i])
    ensures k == |s| || IsSpace(s[k])
    ensures s != [] && !IsSpace(s[0]) ==> k >= 1
  {
    if s == [] || IsSpace(s[0]) then 0 else 1 + WordLength(s[1..])
  }

  /** `s.split()` with no separator: the maximal runs of non-whitespace, in order. */
  function Split(s: string): (words: seq<string>)
    decreases |s|
  {
    var t := StripLeft(s);
    if t == [] then []
    else
      var k := WordLength(t);
      [t[..k]] + Split(t[k..])
  }

  /**
    Reference count of words: the positions holding a non-whitespace character
    that starts s or follows whitespace. `afterSpace` says whether the character
    before s[0] was whitespace (or absent).
   */
  function WordStarts(s: string, afterSpace: bool): nat {
    if s == [] then 0
    else (if afterSpace && !IsSpace(s[0]) then 1 else 0) + WordStarts(s[1..], IsSpace(s[0]))
  }

  lemma {:induction false} WordStartsSkipSpaces(s: string)
    ensures WordStarts(s, true) == WordStarts(StripLeft(s), true)
  {
    if s != [] && IsSpace(s[0]) {
      WordStartsSkipSpaces(s[1..]);
    }
  }

  lemma {:induction false} WordStartsInsideWord(t: string, k: nat)
    requires k <= |t|
    requires forall i :: 0 <= i < k ==> !IsSpace(t[i])
    ensures WordStarts(t, false) == WordStarts(t[k..], false)
  {
    if k > 0 {
      WordStartsInsideWord(t[1..], k - 1);
      assert t[1..][k - 1..] == t[k..];
    }
  }

  /** The number of words `split()` returns is the number of word starts. */
  lemma {:induction false} SplitCountsWordStarts(s: string)
    ensures |Split(s)| == WordStarts(s, true)
    decreases |s|
  {
    WordStartsSkipSpaces(s);
    var t := StripLeft(s);
    if t != [] {
      var k := WordLength(t);
      WordStartsInsideWord(t[1..], k - 1);
      assert t[1..][k - 1..] == t[k..];
      SplitCountsWordStarts(t[k..]);
    }
  }

  // ---------------------------------------------------------------------------
  // title()
  // ---------------------------------------------------------------------------

  /** Whether the character before s[i] is a letter; `before` stands in for the character before s[0]. */
  predicate AfterLetter(s: string, i: nat, before: bool)
    requires i < |s|
  {
    if i == 0 then before else IsAlpha(s[i - 1])
  }

  /**
    Python's `str.title()` loop: each character is lowered when the previous
    character was cased (a letter) and title-cased (raised) otherwise.
   */
  function TitleFrom(s: string, before: bool): (r: string)
    ensures |r| == |s|
  {
    if s == [] then [] else [if before then ToLower(s[0]) else ToUpper(s[0])] + TitleFrom(s[1..], IsAlpha(s[0]))
  }

  /** Position by position, the title-cased character depends only on the character and on whether a letter precedes it. */
  lemma {:induction false} TitleFromAt(s: string, before: bool, i: nat)
    requires i < |s|
    ensures TitleFrom(s, before)[i] == if AfterLetter(s, i, before) then ToLower(s[i]) else ToUpper(s[i])
  {
    if i > 0 {
      TitleFromAt(s[1..], IsAlpha(s[0]), i - 1);
    }
  }

  /** `s.title()`. */
  function Title(s: string): string {
    TitleFrom(s, false)
  }

  /**
    `title()` on ASCII: a letter that starts a run of letters becomes upper
    case, a letter inside a run becomes lower case, and every other character
    and the length are unchanged.
   */
  lemma TitleShape(s: string)
    ensures |Title(s)| == |s|
    ensures forall i :: 0 <= i < |s| && !IsAlpha(s[i]) ==> Title(s)[i] == s[i]
    ensures forall i :: 0 <= i < |s| && IsAlpha(s[i]) && (i == 0 || !IsAlpha(s[i - 1])) ==>
              IsUpper(Title(s)[i]) && Title(s)[i] == ToUpper(s[i])
    ensures forall i :: 0 <= i < |s| && IsAlpha(s[i]) && i > 0 && IsAlpha(s[i - 1]) ==>
              IsLower(Title(s)[i]) && Title(s)[i] == ToLower(s[i])
  {
    forall i | 0 <= i < |s| {
      TitleFromAt(s, false, i);
    }
  }

  /** `title()` keeps, position by position, which characters are letters and which are whitespace. */
  lemma TitleKeepsClasses(s: string)
    ensures |Title(s)| == |s|
    ensures forall i :: 0 <= i < |s| ==> (IsAlpha(Title(s)[i]) <==> IsAlpha(s[i]))
    ensures forall i :: 0 <= i < |s| ==> (IsSpace(Title(s)[i]) <==> IsSpace(s[i]))
  {
    forall i | 0 <= i < |s| {
      TitleFromAt(s, false, i);
    }
  }

  /** `title()` neither creates nor removes letters, and keeps a stripped string stripped. */
  lemma TitleKeepsLetters(s: string)
    ensures HasLetter(Title(s)) <==> HasLetter(s)
    ensures Trimmed(s) ==> Trimmed(Title(s))
  {
    var t := Title(s);
    TitleKeepsClasses(s);
    if HasLetter(s) {
      var i :| 0 <= i < |s| && IsAlpha(s[i]);
      assert IsAlpha(t[i]);
    }
    if HasLetter(t) {
      var i :| 0 <= i < |t| && IsAlpha(t[i]);
      assert IsAlpha(s[i]);
    }
  }

  /** Title-casing an already title-cased string changes nothing. */
  lemma TitleIdempotent(s: string)
    ensures Title(Title(s)) == Title(s)
  {
    var t := Title(s);
    var u := Title(t);
    TitleKeepsClasses(s);
    forall i | 0 <= i < |s|
      ensures u[i] == t[i]
    {
      TitleFromAt(s, false, i);
      TitleFromAt(t, false, i);
      assert AfterLetter(t, i, false) == AfterLetter(s, i, false);
    }
    assert u == t;
  }

  // ---------------------------------------------------------------------------
  // sep.join(items) and its inverse
  // ---------------------------------------------------------------------------

  /** `sep.join(items)`. */
  function Join(items: seq<string>, sep: string): string {
    if |items| == 0 then ""
    else if |items| == 1 then items[0]
    else items[0] + sep + Join(items[1..], sep)
  }

  /** sep occurs in s at position i. */
  predicate OccursAt(s: string, sep: string, i: nat) {
    i + |sep| <= |s| && s[i..i + |sep|] == sep
  }

  /** Index of the first occurrence of sep in s, or |s| when there is none. */
  function Find(s: string, sep: string): (k: nat)
    requires sep != []
    ensures k <= |s|
    ensures k < |s| ==> OccursAt(s, sep, k)
    ensures forall i: nat :: i < k ==> !OccursAt(s, sep, i)
  {
    if |s| < |sep| then |s|
    else if s[..|sep|] == sep then 0
    else
      var k := Find(s[1..], sep);
      assert forall i: nat :: 1 <= i ==> (OccursAt(s, sep, i) <==> OccursAt(s[1..], sep, i - 1));
      1 + k
  }

  /** `s.split(sep)`: the pieces of s between occurrences of sep. */
  function SplitOn(s: string, sep: string): (pieces: seq<string>)
    requires sep != []
    ensures |pieces| >= 1
    decreases |s|
  {
    var k := Find(s, sep);
    if k == |s| then [s] else [s[..k]] + SplitOn(s[k + |sep|..], sep)
  }

  lemma {:induction false} FindAfterPlain(x: string, tail: string, sep: string)
    requires sep != [] && sep[0] !in x
    requires |tail| >= |sep| && tail[..|sep|] == sep
    ensures Find(x + tail, sep) == |x|
    decreases |x|
  {
    var s := x + tail;
    if x == [] {
      assert s == tail;
    } else {
      assert s[0] == x[0];
      assert s[..|sep|][0] == x[0];
      assert s[1..] == x[1..] + tail;
      FindAfterPlain(x[1..], tail, sep);
    }
  }

  lemma {:induction false} FindInPlain(x: string, sep: string)
    requires sep != [] && sep[0] !in x
    ensures Find(x, sep) == |x|
    decreases |x|
  {
    if |x| >= |sep| {
      assert x[..|sep|][0] == x[0];
      FindInPlain(x[1..], sep);
    }
  }

  lemma SplitOnStep(x: string, sep: string, rest: string)
    requires sep != []
    requires Find(x + sep + rest, sep) == |x|
    ensures SplitOn(x + sep + rest, sep) == [x] + SplitOn(rest, sep)
  {
    var s := x + sep + rest;
    assert s[..|x|] == x;
    assert s[|x| + |sep|..] == rest;
  }

  /** Splitting a join on its separator gives the items back when no item contains the separator's first character. */
  lemma {:induction false} SplitJoinRoundTrip(items: seq<string>, sep: string)
    requires |items| >= 1 && sep != []
    requires forall i :: 0 <= i < |items| ==> sep[0] !in items[i]
    ensures SplitOn(Join(items, sep), sep) == items
    decreases |items|
  {
    if |items| == 1 {
      FindInPlain(items[0], sep);
    } else {
      var rest := Join(items[1..], sep);
      assert items[0] + sep + rest == items[0] + (sep + rest);
      assert (sep + rest)[..|sep|] == sep;
      FindAfterPlain(items[0], sep + rest, sep);
      SplitOnStep(items[0], sep, rest);
      assert forall i :: 0 <= i < |items| - 1 ==> items[1..][i] == items[i + 1];
      SplitJoinRoundTrip(items[1..], sep);
      assert [items[0]] + items[1..] == items;
    }
  }
}

=== FILE: wrappers.dfy ===
/** Failure-carrying values shared by every module of the model. */
module Wrappers {

  /** A value that may be missing: Python's `None` or a Django `null=True` field. */
  datatype Option<T> = None | Some(value: T)

  /** The outcome of an operation that can raise: the value, or what was raised. */
  datatype Result<T, E> = Ok(value: T) | Err(error: E)
}
